=== FILE: README.md ===
# Lozone RPG core, modelled in Dafny

This project models the rule-bearing core of the Lozone top-down RPG:

- **Battle round engine** (`combat.dfy`, module `Combat`). This covers:
  - the party-focus cursor;
  - the queue of combat events, built from the members' choices and the enemies' turns;
  - the queue's ordering by `sort` with the code's first-argument-only comparator;
  - the `startLoop` chain that pops and resolves events one at a time;
  - removal of downed enemies and the 'end-battle' signal.

  Each operation is a pure step on an immutable `CombatState`. Combatants' HP lives in a `World` map keyed by sprite id. The damage formula `attackTarget` is a function parameter.
- **`Array.prototype.sort`** (`array_sort.dfy`, module `ArraySort`). The comparator reads only its first argument, so the order depends on the engine's algorithm. The model fixes V8's TimSort for arrays shorter than 64 elements:
  - the leading run is counted and reversed when descending;
  - the remaining elements are placed by binary insertion.

  It proves that the result is a permutation, and gives the exact closed form of the result for first-argument-only comparators.
- **Enchantment events** (`buff_events.dfy`, module `BuffEvents`). These are post-turn, post-attack and pre-attack enchantments. Each returns one combat result, and its `targetDown` flag reads the HP left afterwards. The enchantment itself is a function parameter.
- **Items** (`items.dfy`, module `Items`):
  - the quantity counter, capped at 99 and floored at 0;
  - the pending-use reservation;
  - `handleItemUse`'s resource classifier.
- **Shop** (`shop.dfy`, module `Shop`). This covers buying and selling against a coin balance and a multiset of held item ids.
- **Item controller** (`item_controller.dfy`, module `ItemController`). This covers building items and shop inventories from the repositories, which are modelled as maps.
- **Grid movement** (`movement.dfy`, module `Movement`):
  - the tile in front;
  - tile openness;
  - the velocity a move sets;
  - the collide bookkeeping;
  - the per-frame step toward the target;
  - facing frames.
- **Map-object loading** (`object_loader.dfy`, module `ObjectLoader`). This dispatches the objects of a Tiled map's "objects" layer to per-type factories. Story flags, record lookups and circuit state are function-typed lookups.

`common.dfy` (module `Common`) holds `Option`, `Direction`, `Point` and sequence reversal.

The model follows the code wherever it departs from the evident design of the game. For one such departure both behaviours are modelled: removing a downed combatant from the enemy roster. `Combat.StartLoop`, and every round operation built on it, takes a `Removal` mode:

- `SpliceAsWritten` is the code's `splice(findIndex(...), 1)`;
- `TargetOnly` is the corrected removal.

Every round property is proved for both modes unless it names one. The departures:

- **Queue order.** The queue is not sorted ascending by comparator value, and ties are not kept in order.
  - `Combat.SortIsNotByComparatorValue` shows that values 5, -3, 2 come out as -3, 5, 2.
  - `Combat.NoSlowerExecutorKeepsDeclarationOrder` shows that the order is kept whenever no later event has a negative value.
- **Retreat past the first member.** This is not a no-op: see the Findings.
- **'end-battle' is not emitted exactly once.** The loop keeps resolving queued events after the roster empties. Every later downed target emits it again. `Combat.DuelRound` shows this: when the hero's strike downs the enemy and the enemy's queued counter then downs the hero, 'end-battle' is emitted twice.
- **A hero's fall ends the battle.** Under the code's splice, a downed party member takes the last enemy off the roster. With one enemy left, the roster empties and 'end-battle' is emitted while that enemy is still standing. See `Combat.HeroFallEmptiesRosterAsWritten` and the Findings.
- **Events against a defeated target are not skipped.** Every popped event resolves.
- **The engine's downed test is `currentHp === 0`.** The enchantment events' test is `currentHp <= 0`. Each is modelled as written.

## Model

| member | source | states |
|---|---|---|
| ArraySort.Sort | src/main/components/battle/Combat.ts:131-135 | The engine's `sort` on the event queue: V8's short-array TimSort, which makes the leading run ascending and then places each later element by binary insertion. An array of fewer than two elements is returned unchanged; the lemmas below give the order of a longer one. |
| ArraySort.SortIsPermutation | src/main/components/battle/Combat.ts:131-135 | For every comparator, sorting the queue keeps its length and its multiset of events: nothing is lost or duplicated. |
| ArraySort.InsertionPointFirstArgumentOnly | src/main/components/battle/Combat.ts:132-134 | With a comparator that reads only its first argument, the binary search puts a negative-key element at the front of the sorted prefix and any other element at its end, whatever the prefix holds. |
| ArraySort.SortShapeFirstArgumentOnly | src/main/components/battle/Combat.ts:131-135 | Closed form of the sort under such a comparator. The later elements with a negative key go in front of the leading run, in reverse order. The rest follow the run in their original order. |
| ArraySort.SortKeepsOrderWithoutNegativeKeys | src/main/components/battle/Combat.ts:131-135 | If no element after the first has a negative key, the sorted queue equals the input. |
| ArraySort.SortReversesWithOnlyNegativeKeys | src/main/components/battle/Combat.ts:131-135 | If every element after the first has a negative key, the sorted queue is the input reversed. |
| Combat.FocusNextPartyInput | src/main/components/battle/Combat.ts:29-37 | Reports true exactly when the focus is below the last member, and then advances it by one. Otherwise nothing changes. A focus inside the party stays inside it. |
| Combat.FocusPreviousPartyInput | src/main/components/battle/Combat.ts:41-49 | As written, it acts only when the focus is at most 0: it decrements the focus and pops the queue. At focus 1 or more it changes nothing and reports false. |
| Combat.FocusPreviousIntended | src/main/components/battle/Combat.ts:41-49 | The corrected retreat acts exactly when the focus is above 0. It steps back one member and pops the last queued event. Party, enemies and HP are untouched. A non-negative focus never goes negative. |
| Combat.ResetPartyFocusIndex | src/main/components/battle/Combat.ts:161-163 | Focus becomes 0; queue, party, enemies and HP are untouched. |
| Combat.FocusNextTimes | src/main/components/battle/Combat.ts:29-37 | `n` advances of the focus move it `n` members on, stopping at the last member. Nothing else changes. |
| Combat.ResetUndoesAdvance | src/main/components/battle/Combat.ts:29-163 | However many times input has advanced, a reset gives the same state as resetting before any advance. |
| Combat.AddEvent | src/main/components/battle/Combat.ts:100-102 | The queue grows by one, with the new event last and the earlier events in place. Nothing else changes. |
| Combat.ApplyEnemyTurns | src/main/components/battle/Combat.ts:119-124 | Appends exactly one attack per enemy, in roster order, each against the first party member with right orientation. The earlier queue is kept as its prefix. |
| Combat.EnemyTurnsKeepValid | src/main/components/battle/Combat.ts:119-124 | Enemy turns mention only combatants with HP records, and the resulting queue is the old one followed by the enemies' attacks. |
| Combat.SpeedComparator | src/main/components/battle/Combat.ts:132-134 | The comparator is negative exactly when the first event's executor is less dexterous than its target, and zero exactly when they are equally dexterous. |
| Combat.SpeedComparatorReadsFirstArgumentOnly | src/main/components/battle/Combat.ts:132-134 | The comparator's value is a key of its first argument alone: executor dexterity minus target dexterity. The second argument is never read. |
| Combat.SortEventsBySpeed | src/main/components/battle/Combat.ts:131-135 | The sorted queue is a permutation of the queue. Every other field is unchanged, and validity is kept. |
| Combat.ExecuteAction | src/main/components/battle/Combat.ts:187-211 | Whatever the event's action, the executor attacks the target. The target's HP record becomes what the damage formula reports, and no other record changes (the formula is assumed to touch only its target; see "## Left out"). The result names both sprites. |
| Combat.FindIndex | src/main/components/battle/Combat.ts:149 | The result is -1 exactly when the sprite is absent. Otherwise it is the first index holding the sprite. |
| Combat.Splice1 | src/main/components/battle/Combat.ts:150 | `splice(i, 1)`: an index in range removes exactly element `i` and keeps the rest in order. A negative index counts from the end, so `-1` removes the last element. An empty array or an index past the end changes nothing. Only elements of the input remain. |
| Combat.RemoveDownedAsWritten | src/main/components/battle/Combat.ts:149-150 | The code's removal takes the target out at its first index, keeping the other enemies in order. When the target is absent, it drops the last enemy instead. |
| Combat.RemoveDownedIntended | src/main/components/battle/Combat.ts:149-150 | The corrected removal takes the target out at its first index, keeping the other enemies in order. The roster's multiset loses exactly the target. An absent target leaves the roster unchanged. |
| Combat.RemovalsAgreeUnlessTargetAbsent | src/main/components/battle/Combat.ts:149-150 | The code's removal and the corrected one give the same roster exactly when the target is an enemy or the roster is empty. |
| Combat.RemoveDowned | src/main/components/battle/Combat.ts:149-150 | In either mode, a present target is removed at its first index with the rest in order. For an absent target, the code's splice drops the last enemy and the corrected removal keeps the roster. Only enemies remain. |
| Combat.StartLoop | src/main/components/battle/Combat.ts:136-158 | Idle exactly on an empty queue. Otherwise it pops and resolves the last event, and the world becomes what `executeAction` makes of it. The target counts as downed iff its HP is exactly 0. A target that is not downed leaves the roster as it was. A downed target that is an enemy is removed at its first index. A downed non-enemy makes the code's splice drop the last enemy, while the corrected removal keeps the roster. 'end-battle' is emitted iff the target was downed and the roster is now empty. Party and focus are unchanged and validity is kept. |
| Combat.Drain | src/main/components/battle/Combat.ts:136-158 | The `startLoop` chain empties the queue and resolves the events in reverse queue order. It never adds enemies and leaves party and focus alone. If 'end-battle' was emitted, the roster ends empty. |
| Combat.DrainAppliesEveryAttack | src/main/components/battle/Combat.ts:136-158 | The HP a round leaves are those of applying every popped event's attack in pop order to the starting HP (`Combat.ApplyAll`). Roster bookkeeping never changes HP. |
| Combat.DrainEmitsEndWhenRosterEmpties | src/main/components/battle/Combat.ts:151-154 | If a round empties a non-empty enemy roster, 'end-battle' was emitted at least once. |
| Combat.ResolveRound | src/main/components/battle/Combat.ts:108-111 | After enemy turns, sorting and the loop, the resolved events are exactly the queued events plus one attack per enemy, as a multiset. The queue ends empty, and the roster is empty whenever 'end-battle' was emitted. |
| Combat.ConfirmSelection | src/main/components/battle/Combat.ts:104-118 | Waits for the next member exactly when one remains, with the focus advanced. Otherwise the round is resolved as above and the focus is reset to 0. |
| Combat.Choose | src/main/components/battle/Combat.ts:57-85 | Run, and only Run, ends the battle with the state unchanged. Defend and Item change nothing. Attack queues the focused member's attack with left orientation, then confirms. Before the last member this waits for the next member. At the last member the round is resolved: focus 0, empty queue, and the resolved events are the queue, the new attack and one attack per enemy, as a multiset. |
| Combat.CollectAttacksResolvesRound | src/main/components/battle/Combat.ts:78-83 | When every member from the focused one on picks a target, the round always resolves. It ends at focus 0 with an empty queue, having resolved the queued, declared and enemy attacks as a multiset. |
| Combat.FullRoundReturnsToFirstMember | src/main/components/battle/Combat.ts:104-124 | A full input phase from the first member resolves exactly party-size plus enemy-count events and returns control to member 0. |
| Combat.FocusPreviousGuardInverted | src/main/components/battle/Combat.ts:43 | At member 1 with one queued attack, the code's retreat does nothing and the corrected one undoes it. At member 0, the code's retreat drives the focus to -1. |
| Combat.RetreatUndoesConfirm | src/main/components/battle/Combat.ts:41-49 | With the corrected guard, retreating right after an attack choice restores the state exactly. |
| Combat.RemovalAsWrittenDropsBystander | src/main/components/battle/Combat.ts:149-150 | A downed target that is not an enemy makes the code's splice remove the last enemy. The corrected removal removes nothing. |
| Combat.NoSlowerExecutorKeepsDeclarationOrder | src/main/components/battle/Combat.ts:131-142 | If no event after the first has a negative comparator value, sorting keeps the declared order, so the events resolve last-declared first. |
| Combat.TwoEventOrdering | src/main/components/battle/Combat.ts:131-135 | Events with comparator values 9 and -7 end up as [-7 event, 9 event] in either declared order, so the 9 event resolves first. |
| Combat.TwoEventOrderingGeneral | src/main/components/battle/Combat.ts:131-135 | A second event with a negative comparator value is moved in front of the first, whatever the first's value. |
| Combat.SortIsNotByComparatorValue | src/main/components/battle/Combat.ts:131-135 | Values 5, -3, 2 sort to -3, 5, 2: the queue is not ordered by comparator value. |
| Combat.DuelRound | src/main/components/battle/Combat.ts:136-158 | One-on-one round with 10-damage hits and any starting HP. The hero strikes first, and the enemy's counter resolves even when the enemy fell. Under the code's splice, each fall (enemy or hero) empties the roster and emits 'end-battle'. Under the corrected removal only the enemy's fall does, and a later hero fall emits it again only once the roster is empty. |
| Combat.HeroFallEmptiesRosterAsWritten | src/main/components/battle/Combat.ts:149-154 | An enemy that survives the hero's strike and downs the hero is still standing. Yet the code's splice empties the roster and emits 'end-battle' once. The corrected removal keeps the enemy and emits nothing. |
| BuffEvents.Base | src/main/components/battle/combat-events/BuffEvents.ts:8-16 | Every enchantment event hands the base event the enchanted combatant as executor, with no target and no action. |
| BuffEvents.ResultFollowsBase | src/main/components/battle/combat-events/BuffEvents.ts:8-53 | The executor the base event records stays the executor of an attack enchantment's result, which gains the target the base leaves out. A post-turn result names the enchanted combatant as target and has no executor. |
| BuffEvents.Args | src/main/components/battle/combat-events/BuffEvents.ts:31-115 | Post-turn passes the subject and its party. Post-attack passes subject, target and both parties. Pre-attack passes the subject alone. |
| BuffEvents.StandingMembers | src/main/components/battle/combat-events/BuffEvents.ts:84-85 | The combatants combat text is shown over are exactly the affected ones still above 0 HP. |
| BuffEvents.ExecuteAction | src/main/components/battle/combat-events/BuffEvents.ts:29-133 | There is exactly one result, of type enchantment, echoing the enchantment's value. `targetDown` holds iff the HP read afterwards is at most 0: the enchanted combatant's for post-turn, the target's otherwise. Post-turn has no executor. Post-attack texts cover exactly the standing affected combatants. |
| BuffEvents.PreAttackDownIgnoresEnchanted | src/main/components/battle/combat-events/BuffEvents.ts:113-133 | A pre-attack enchantment's `targetDown` reports the target's HP before the event, not the enchanted combatant's, when the target's HP is left alone. |
| BuffEvents.PostTurnPoisonDowns | src/main/components/battle/combat-events/BuffEvents.ts:29-53 | A -5 poison on a combatant at 3 HP reports it down, with no executor. |
| Items.NewItem | src/main/components/entities/Item.ts:26-37 | A new item stores the id, name, description, effect, potency and category it is given. Its quantity is the one passed, or 1 when omitted, and nothing is reserved. |
| Items.IncrementQuantity | src/main/components/entities/Item.ts:38-45 | Adds one below the cap of 99 and holds at the cap. The range 0..99 is kept and nothing else changes. |
| Items.DecrementQuantity | src/main/components/entities/Item.ts:46-53 | Removes one above 0 and holds at 0. The range 0..99 is kept and nothing else changes. |
| Items.SetQuantity | src/main/components/entities/Item.ts:54-56 | The quantity becomes the given amount; the reservation and every other field are kept. |
| Items.SetQuantityOverridesIncrements | src/main/components/entities/Item.ts:38-56 | Setting the quantity forgets any earlier increments. Setting it to its current value changes nothing. |
| Items.NewItemLifecycle | src/main/components/entities/Item.ts:26-72 | A new item can be reserved once and no more. Collecting `n` more of it gives `min(1 + n, 99)`. |
| Items.GetQuantity | src/main/components/entities/Item.ts:70-72 | Some are available exactly when fewer are reserved than held. With nothing reserved, all held are available. |
| Items.CanSetIntendToUse | src/main/components/entities/Item.ts:66-68 | True exactly when fewer are reserved than held. |
| Items.SetIntendToUse | src/main/components/entities/Item.ts:58-60 | The available count drops by the amount reserved, and the held quantity is unchanged. |
| Items.ResetIntendToUse | src/main/components/entities/Item.ts:62-64 | The available count goes back to the held quantity. |
| Items.DecrementUndoesIncrement | src/main/components/entities/Item.ts:38-53 | Below the cap, decrement undoes increment. |
| Items.IncrementUndoesDecrement | src/main/components/entities/Item.ts:38-53 | Above 0, increment undoes decrement. |
| Items.IncrementsSaturate | src/main/components/entities/Item.ts:38-45 | `n` increments give `min(q + n, 99)`. |
| Items.DecrementsStopAtZero | src/main/components/entities/Item.ts:46-53 | `n` decrements give `max(q - n, 0)`. |
| Items.ReservationsExhaust | src/main/components/entities/Item.ts:58-72 | After `n` single reservations, `n` fewer are available. Another reservation is allowed iff `n` is below the available count. A reset undoes them all. |
| Items.HandleItemUse | src/main/components/entities/Item.ts:92-121 | Mana items restore MP, full iff MP is at least max. Restoration items restore HP and revive items revive, both full iff HP is at least max. Any other spell type leaves resource, fullness and function undefined. |
| Items.ItemUseReadsOnlyItsResource | src/main/components/entities/Item.ts:92-121 | A mana item's use does not depend on the recipient's HP. A restoration or revive item's use does not depend on its MP. Any other item's use does not depend on the recipient at all. |
| Shop.PurchaseItem | src/main/scenes/shopScene.ts:148-162 | Refused with "Not enough coins!" exactly when the price exceeds the balance, leaving the purse unchanged. Otherwise the price is paid and the item is added, so the balance stays non-negative. |
| Shop.SellItem | src/main/scenes/shopScene.ts:164-177 | Refused with "No <name> to sell!" exactly when no such item is held. Otherwise it pays the value and removes exactly one of the item. |
| Shop.SellUndoesPurchase | src/main/scenes/shopScene.ts:148-177 | Selling back what was just bought restores the purse. |
| Shop.PurchaseUndoesSale | src/main/scenes/shopScene.ts:148-177 | Buying back what was just sold restores a non-negative purse. |
| Shop.VisitKeepsCoinsNonNegative | src/main/scenes/shopScene.ts:148-177 | No sequence of purchases and sales drives a non-negative balance below zero, given non-negative sale values. |
| ItemController.ParseCategory | src/main/data/controllers/ItemController.ts:53 | The equipment category is recognised exactly for the name "equipment". |
| ItemController.RecordFor | src/main/data/controllers/ItemController.ts:47-49 | The item repository's record is used when it has the id. Otherwise the equipment repository's record is used. |
| ItemController.SpellEffect | src/main/data/controllers/ItemController.ts:51-52 | A falsy spell id yields no effect and no lookup. Otherwise the effect is the spell found under that id. |
| ItemController.GetItem | src/main/data/controllers/ItemController.ts:46-96 | The item has the record's id, name, description, potency, spell and category, and a quantity of 1. It carries equipment gear exactly when the category is "equipment". A plain item carries the record's value; an equipment item carries none, because the Equipment constructor does not forward it. |
| ItemController.GetItems | src/main/data/controllers/ItemController.ts:38-40 | Builds one item per id, in order. |
| ItemController.GetShopInventory | src/main/data/controllers/ItemController.ts:33-44 | The shop's name and one built item per listed id, in order. The id is the shop record's own id when it has one (the spread overrides the argument), else the argument. |
| ItemController.ShopInventoryFollowsShopList | src/main/data/controllers/ItemController.ts:33-44 | With self-keyed repositories, the inventory lists exactly the shop's ids in order, each as a stack of one. |
| ItemController.ItemRepositoryWins | src/main/data/controllers/ItemController.ts:47-49 | An id in both repositories is built from the item repository's record. |
| Movement.Face | src/main/components/entities/Movement.ts:21-36 | Facing up shows frame 3, left or right frame 7, and down frame 0. Only facing and frame change. |
| Movement.TileInFront | src/main/components/entities/Movement.ts:123-134 | The position one 64-pixel tile away in the facing direction. |
| Movement.TileInFrontReturns | src/main/components/entities/Movement.ts:123-134 | Turning round on the tile in front and looking ahead again gives back the start. |
| Movement.TileIsOpen | src/main/components/entities/Movement.ts:110-116 | Open exactly when every layer has a tile at the position and none of those tiles collides. A missing tile closes the position. |
| Movement.HandleMovement | src/main/components/entities/Movement.ts:67-108 | On an open target tile the sprite starts moving. Only the moving axis's velocity is set: +8 right or down, -8 left or up. The callback runs. When the sprite has a current tile, that tile is released and the target's foreground tile is marked colliding and becomes current, with no other tile changed. On a blocked tile the sprite only faces the direction, and the animation stops and 'hit-wall' is emitted. |
| Movement.Move | src/main/components/entities/Movement.ts:62-66 | Faces the direction and aims at the tile in front. |
| Movement.Stop | src/main/components/entities/Movement.ts:58-61 | Faces down and aims at the tile underfoot. |
| Movement.TeleportToTarget | src/main/components/entities/Movement.ts:37-40 | The position becomes the target and nothing else changes. |
| Movement.MoveToTarget | src/main/components/entities/Movement.ts:44-57 | At the target, movement stops, underfoot is queried and 'finished-movement' is emitted. Otherwise each axis not yet at the target advances by its velocity, with no emission. |
| Movement.TeleportArrives | src/main/components/entities/Movement.ts:37-57 | After a teleport, the next frame stops the sprite where it is, queries underfoot and emits 'finished-movement'. |
| Movement.StopThenTeleportRestsUnderfoot | src/main/components/entities/Movement.ts:37-61 | Stopping and then teleporting puts the sprite on the tile underfoot, facing down. The next frame leaves it there at rest. |
| Movement.BlockedMoveOnlyTurns | src/main/components/entities/Movement.ts:62-108 | A move into a closed tile leaves position, motion and the map unchanged. The sprite shows the new facing's frame, the animation stops and 'hit-wall' is emitted. |
| Movement.EnteredTileCloses | src/main/components/entities/Movement.ts:84-102 | When a sprite that tracks its tile moves onto an open tile, that tile becomes closed and current. The tile it left is released. |
| Movement.FramesAlongX | src/main/components/entities/Movement.ts:50-52 | `k` frames at a velocity that divides the distance `k` times reach the target's x and change nothing else. |
| Movement.FramesAlongY | src/main/components/entities/Movement.ts:53-55 | The same along y. |
| Movement.MoveArrivesAfterEightFrames | src/main/components/entities/Movement.ts:44-108 | A move onto an open tile reaches the tile in front after exactly eight frames, still moving. The ninth frame stops it and emits 'finished-movement'. |
| ObjectLoader.CreateInteractive | src/main/utility/exploration/ObjectLoader.ts:133-143 | Placed at object + 32, carrying `eventId`. The message is the looked-up dialog when `dialogId` is truthy, and the falsy `dialogId` itself otherwise. |
| ObjectLoader.CreateInteractiveObject | src/main/utility/exploration/ObjectLoader.ts:145-163 | An item switch at object + 32 exactly when the record's category is "item-switch". Otherwise the entry is undefined. |
| ObjectLoader.CreateSwitch | src/main/utility/exploration/ObjectLoader.ts:166-178 | A switcher at object + 32 for the object's circuit. |
| ObjectLoader.CreateBlock | src/main/utility/exploration/ObjectLoader.ts:181-212 | A block or pit block at object + 32, erect exactly when its circuit is active. |
| ObjectLoader.CreateWarp | src/main/utility/exploration/ObjectLoader.ts:214-232 | `warp-tile` yields a Warp and `warp` yields a WarpTrigger, at object + 32 with the object's warp id. |
| ObjectLoader.CreateSpawn | src/main/utility/exploration/ObjectLoader.ts:234-241 | A spawn point at object + 32. |
| ObjectLoader.CreateNpc | src/main/utility/exploration/ObjectLoader.ts:247-262 | Faces the record's direction, or up when the record has none, with the record's sprite and placement. |
| ObjectLoader.CreateBossMonster | src/main/utility/exploration/ObjectLoader.ts:264-278 | Always faces up, with the record's encounter and sprite. |
| ObjectLoader.CreateChest | src/main/utility/exploration/ObjectLoader.ts:281-309 | Open iff its flag is set. Otherwise locked iff `locked` is truthy, else closed. The unlock item is truthy iff both `locked` and `unlockItemId` are. |
| ObjectLoader.CreateDoor | src/main/utility/exploration/ObjectLoader.ts:311-337 | Nothing exactly when the flag is set, else a locked door at object + 32. Its key item is the property when truthy, else 7. |
| ObjectLoader.CreateKeyItem | src/main/utility/exploration/ObjectLoader.ts:339-355 | A key item at object + 32 with the object's item id. |
| ObjectLoader.Contribution | src/main/utility/exploration/ObjectLoader.ts:47-129 | An object adds at most one entry. It adds exactly one iff its type is recognised, unless it is a door whose flag is set. Every placed entry sits at that object + 32. |
| ObjectLoader.GetDataToLoad | src/main/utility/exploration/ObjectLoader.ts:38-131 | The list never has more entries than there are objects. |
| ObjectLoader.LoadDistributes | src/main/utility/exploration/ObjectLoader.ts:38-131 | Loading a concatenation of object lists is concatenating their loads. |
| ObjectLoader.LoadKeepsOrder | src/main/utility/exploration/ObjectLoader.ts:47-129 | The loaded list is the earlier objects' entries, then this object's entry, then the later objects' entries: input order is kept. |
| ObjectLoader.LoadCount | src/main/utility/exploration/ObjectLoader.ts:47-129 | At most one entry per object. Exactly one per object when all types are recognised and no door is flagged. None when no type is recognised. |
| ObjectLoader.LoadPlacesAtCentres | src/main/utility/exploration/ObjectLoader.ts:138-139 | Every placed entry sits at some input object's position plus 32 on both axes. |

## Left out

- Timers, promises and animation pacing (`setTimeout`, `playCombatText`, sprite `setX`/`setAlpha` nudges, `console.log`). Each event's resolution is one atomic step, and the `startLoop` chain is a recursive drain.
- The damage formula `attackTarget` and the enchantments' `applyEnchantment` are outside the core. They are function parameters (`AttackFormula`, `Enchantment`); the HP an enchantment writes is its `hp` map.
- Combat.AttackFormula: the formula is assumed to change only the target's HP record, never the executor's or any other combatant's, and every combatant's dexterity is fixed for the battle. The parameter's type builds these in: it returns only the target's new record, and a sprite's dexterity is an immutable field. So `Combat.ExecuteAction`'s frame, `Combat.ApplyAll`'s "an untargeted id keeps its record", the worlds of `Combat.DuelRound` and the next round's sort keys rest on this assumption, not on code in the core.
- UI construction is left out: panels, status panel, `teardownInputUI`, shop panels and audio. The input menu is the `Choice` datatype, and the input UI being rebuilt is the `AwaitingInput` and `Idle` outcomes.
- The plain `BuffEvent` class has no `executeAction` of its own. It inherits the base class's, which is not part of this model; only its constructor (`BuffEvents.Base`) is modelled.
- ArraySort: only arrays shorter than 64 elements are modelled. Larger arrays go through V8's run merging, which is not modelled; a battle queue holds one event per combatant.
- Items.HandleItemUse: requires the item to have an effect. The code reads `item.effect.type` and would throw on an item without one; that throw is not modelled.
- Items and ItemController: the `Item` built by `getItem` follows the newer `components/entities/Items/Item.ts` class, which is not part of this model. So the built item is its own `BuiltItem` record, carrying the fields `getItem` passes. Sprite key, frame, sound, flags, classes, characters, modifiers and animations are dropped.
- ItemController.GetItem: the built equipment item has no value (`None`). `getItem` passes the record's value to `new Equipment(...)` (src/main/data/controllers/ItemController.ts:76), but the Equipment constructor (src/main/components/entities/Items/Equipment.ts:20-52) takes only seventeen parameters and forwards its first twelve to the item class, so the value is dropped. What the item class (`components/entities/Items/Item.ts`, not part of this model) then stores is not modelled. If it is `undefined`, `item.value > currentCoins` in `purchaseItem` (src/main/scenes/shopScene.ts:153) is false, and buying an equipment item is never refused; Shop takes the value as an integer and does not model that case.
- ItemController: a miss in the item and equipment repositories is not modelled; `RecordFor` and `GetItem` require a known id. A truthy spell id missing from the spell repository gives no effect (`None`). Enum names outside the data's members parse to `None`.
- Shop: the player state's coin and contents bookkeeping (`removeCoins`, `addItemToContents` and so on) is not part of this model. The purse models it as a balance and a multiset of item ids.
- Movement: the keyboard `Controllable`, the `queryObject` throttle, `getTileBelowFoot` (a parameter of `Stop`) and the casts are left out. A map tile is present when the map has a tile at that coordinate. Phaser's `getTileAt(..., true, ...)` returns a tile for any in-bounds coordinate, so absence means out of bounds.
- ObjectLoader: the dialog controller behind `createInteractive`'s lookup is a parameter (`Lookups.dialog`). NPC dialog, warp event and placement flags, circuit objects and key-item sprite data are dropped. `createTrigger` always throws and is never called.
- Combat.FindIndex: sprites compare by value (id, name, dexterity), where the code compares objects by identity (`===`). Two distinct combatants with equal fields would be confused; the battle data gives each combatant its own id.
- Movement.MoveArrivesAfterEightFrames: proved for the built-in speed of 8 pixels per frame only. The speed is a constant of the class.

## Findings

| source | as written | input that shows it | evidently intended | confidence | as-written member | corrected member |
|---|---|---|---|---|---|---|
| src/main/components/battle/Combat.ts:43 | `focusPreviousPartyInput` acts only when the focus is at most 0 | Focus 1 with the first member's attack queued: retreat does nothing. Focus 0: focus becomes -1 and the queue is popped. | Act only when the focus is above 0, as the comment on line 42 describes | high; not executed | Combat.FocusPreviousPartyInput (shown by Combat.FocusPreviousGuardInverted) | Combat.FocusPreviousIntended (proved by Combat.RetreatUndoesConfirm) |
| src/main/components/battle/Combat.ts:149-150 | `enemies.splice(findIndex(...), 1)` with an index of -1 when the downed target is not an enemy | Enemies [a, b] and a downed party member: the roster becomes [a]. Enemies [a] and a's counter downs the hero: the roster empties and 'end-battle' is emitted with a still standing. | Remove the target only when it is in the roster | high; not executed | Combat.RemoveDownedAsWritten, the `SpliceAsWritten` mode of Combat.StartLoop (shown by Combat.RemovalAsWrittenDropsBystander and Combat.HeroFallEmptiesRosterAsWritten) | Combat.RemoveDownedIntended, the `TargetOnly` mode of Combat.StartLoop (proved by Combat.RemovalsAgreeUnlessTargetAbsent and Combat.DuelRound) |

=== FILE: array_sort.dfy ===
/** `Array.prototype.sort` as the browser engine runs it on short arrays.

    ECMAScript leaves the order implementation-defined when the comparator is
    not a consistent ordering, which is the case for the battle queue's
    comparator. The model therefore fixes one engine's algorithm: V8's TimSort
    on an array shorter than 64 elements, which is a single run — the leading
    run is measured (and reversed when it is strictly descending), then every
    later element is placed by binary insertion, the comparator being called
    with the element being placed as its FIRST argument. */
module ArraySort {
  import opened Common

  /** A comparator: negative means "first argument goes before the second". */
  type Comparator<!T> = (T, T) -> int

  /** Whether the leading run is descending: the second element compared to the first. */
  function RunIsDescending<T>(a: seq<T>, cmp: Comparator<T>): bool
    requires |a| >= 2
  {
    cmp(a[1], a[0]) < 0
  }

  /** Extends the leading run from index `i` while each element keeps its
      predecessor's direction. */
  function RunEnd<T>(a: seq<T>, cmp: Comparator<T>, descending: bool, i: nat): (k: nat)
    requires 2 <= i <= |a|
    ensures i <= k <= |a|
    decreases |a| - i
  {
    if i == |a| then i
    else if descending && cmp(a[i], a[i - 1]) >= 0 then i
    else if !descending && cmp(a[i], a[i - 1]) < 0 then i
    else RunEnd(a, cmp, descending, i + 1)
  }

  /** Length of the leading run (V8 CountAndMakeRun). */
  function RunLength<T>(a: seq<T>, cmp: Comparator<T>): (k: nat)
    requires |a| >= 2
    ensures 2 <= k <= |a|
  {
    RunEnd(a, cmp, RunIsDescending(a, cmp), 2)
  }

  /** The array once its leading run has been made ascending. */
  function MakeRun<T>(a: seq<T>, cmp: Comparator<T>): seq<T>
    requires |a| >= 2
  {
    var k := RunLength(a, cmp);
    if RunIsDescending(a, cmp) then Reverse(a[..k]) + a[k..] else a
  }

  /** Binary search for the place of `pivot` in `a[lo..hi]`. */
  function InsertionPoint<T>(a: seq<T>, pivot: T, lo: nat, hi: nat, cmp: Comparator<T>): (p: nat)
    requires lo <= hi <= |a|
    ensures lo <= p <= hi
    decreases hi - lo
  {
    if lo >= hi then lo
    else
      var mid := lo + (hi - lo) / 2;
      if cmp(pivot, a[mid]) < 0 then InsertionPoint(a, pivot, lo, mid, cmp)
      else InsertionPoint(a, pivot, mid + 1, hi, cmp)
  }

  /** Moves `a[i]` to index `p`, shifting `a[p..i]` one place to the right. */
  function MoveTo<T>(a: seq<T>, i: nat, p: nat): seq<T>
    requires p <= i < |a|
  {
    a[..p] + [a[i]] + a[p..i] + a[i + 1..]
  }

  /** Places `a[start..]` one by one into the sorted prefix `a[..start]`. */
  function BinaryInsertionSort<T>(a: seq<T>, start: nat, cmp: Comparator<T>): seq<T>
    requires start <= |a|
    decreases |a| - start
  {
    if start == |a| then a
    else
      var p := InsertionPoint(a, a[start], 0, start, cmp);
      BinaryInsertionSort(MoveTo(a, start, p), start + 1, cmp)
  }

  /** The order `a.sort(cmp)` produces: an array of fewer than two elements is
      left as it is; see the lemmas below for what happens to a longer one. */
  function Sort<T>(a: seq<T>, cmp: Comparator<T>): (r: seq<T>)
    ensures |a| < 2 ==> r == a
  {
    if |a| < 2 then a
    else BinaryInsertionSort(MakeRun(a, cmp), RunLength(a, cmp), cmp)
  }

  // ---------------------------------------------------------------------------
  // Permutation: whatever the comparator says, sorting only reorders.
  // ---------------------------------------------------------------------------

  lemma MoveToMultiset<T>(a: seq<T>, i: nat, p: nat)
    requires p <= i < |a|
    ensures |MoveTo(a, i, p)| == |a|
    ensures multiset(MoveTo(a, i, p)) == multiset(a)
  {
    assert a == a[..p] + a[p..i] + [a[i]] + a[i + 1..];
  }

  lemma {:induction false} BinaryInsertionSortMultiset<T>(a: seq<T>, start: nat, cmp: Comparator<T>)
    requires start <= |a|
    ensures |BinaryInsertionSort(a, start, cmp)| == |a|
    ensures multiset(BinaryInsertionSort(a, start, cmp)) == multiset(a)
    decreases |a| - start
  {
    if start < |a| {
      var p := InsertionPoint(a, a[start], 0, start, cmp);
      MoveToMultiset(a, start, p);
      BinaryInsertionSortMultiset(MoveTo(a, start, p), start + 1, cmp);
    }
  }

  lemma MakeRunMultiset<T>(a: seq<T>, cmp: Comparator<T>)
    requires |a| >= 2
    ensures |MakeRun(a, cmp)| == |a|
    ensures multiset(MakeRun(a, cmp)) == multiset(a)
  {
    var k := RunLength(a, cmp);
    if RunIsDescending(a, cmp) {
      ReverseMultiset(a[..k]);
      assert a == a[..k] + a[k..];
    }
  }

  /** Sorting yields a permutation of its input, for every comparator. */
  lemma SortIsPermutation<T>(a: seq<T>, cmp: Comparator<T>)
    ensures |Sort(a, cmp)| == |a|
    ensures multiset(Sort(a, cmp)) == multiset(a)
  {
    if |a| >= 2 {
      MakeRunMultiset(a, cmp);
      BinaryInsertionSortMultiset(MakeRun(a, cmp), RunLength(a, cmp), cmp);
    }
  }

  // ---------------------------------------------------------------------------
  // A comparator that reads only its first argument.
  // ---------------------------------------------------------------------------

  /** `cmp` consults only `key` of its first argument. */
  ghost predicate FirstArgumentOnly<T(!new)>(cmp: Comparator<T>, key: T -> int) {
    forall x, y :: cmp(x, y) == key(x)
  }

  /** The elements of `s` whose key is negative, in order. */
  function Negatives<T>(s: seq<T>, key: T -> int): seq<T>
  {
    if |s| == 0 then []
    else Negatives(s[..|s| - 1], key) + (if key(s[|s| - 1]) < 0 then [s[|s| - 1]] else [])
  }

  /** The elements of `s` whose key is zero or more, in order. */
  function NonNegatives<T>(s: seq<T>, key: T -> int): seq<T>
  {
    if |s| == 0 then []
    else NonNegatives(s[..|s| - 1], key) + (if key(s[|s| - 1]) >= 0 then [s[|s| - 1]] else [])
  }

  /** With such a comparator the binary search never depends on the array:
      a negative key goes to the front, any other key stays at the end. */
  lemma {:induction false} InsertionPointFirstArgumentOnly<T(!new)>(
    a: seq<T>, pivot: T, lo: nat, hi: nat, cmp: Comparator<T>, key: T -> int)
    requires lo <= hi <= |a|
    requires FirstArgumentOnly(cmp, key)
    ensures InsertionPoint(a, pivot, lo, hi, cmp) == if key(pivot) < 0 then lo else hi
    decreases hi - lo
  {
    if lo < hi {
      var mid := lo + (hi - lo) / 2;
      assert cmp(pivot, a[mid]) == key(pivot);
      if key(pivot) < 0 {
        InsertionPointFirstArgumentOnly(a, pivot, lo, mid, cmp, key);
      } else {
        InsertionPointFirstArgumentOnly(a, pivot, mid + 1, hi, cmp, key);
      }
    }
  }

  lemma FilterLengths<T>(s: seq<T>, key: T -> int)
    ensures |Negatives(s, key)| + |NonNegatives(s, key)| == |s|
  {
  }

  /** The state of binary insertion after the elements `r[k..i]` were placed. */
  function PlacedShape<T>(r: seq<T>, k: nat, i: nat, key: T -> int): (b: seq<T>)
    requires k <= i <= |r|
    ensures |b| == |r|
  {
    FilterLengths(r[k..i], key);
    Reverse(Negatives(r[k..i], key)) + r[..k] + NonNegatives(r[k..i], key) + r[i..]
  }

  lemma FiltersSnoc<T>(s: seq<T>, x: T, key: T -> int)
    ensures Negatives(s + [x], key) == Negatives(s, key) + (if key(x) < 0 then [x] else [])
    ensures NonNegatives(s + [x], key) == NonNegatives(s, key) + (if key(x) >= 0 then [x] else [])
  {
    assert (s + [x])[..|s|] == s;
  }

  /** Moving the element at `|prefix|` to the front, or leaving it in place. */
  lemma MoveToEnds<T>(prefix: seq<T>, x: T, rest: seq<T>)
    ensures MoveTo(prefix + [x] + rest, |prefix|, 0) == [x] + prefix + rest
    ensures MoveTo(prefix + [x] + rest, |prefix|, |prefix|) == prefix + [x] + rest
  {
    var b := prefix + [x] + rest;
    assert b[..|prefix|] == prefix;
    assert b[|prefix| + 1..] == rest;
  }

  /** The shape at `i`, split around the next element to place. */
  lemma ShapeAt<T>(r: seq<T>, k: nat, i: nat, key: T -> int)
    requires k <= i < |r|
    ensures var prefix := Reverse(Negatives(r[k..i], key)) + r[..k] + NonNegatives(r[k..i], key);
            && |prefix| == i
            && PlacedShape(r, k, i, key) == prefix + [r[i]] + r[i + 1..]
  {
    FilterLengths(r[k..i], key);
    assert r[i..] == [r[i]] + r[i + 1..];
  }

  /** The shape at `i + 1`, in terms of the pieces of the shape at `i`. */
  lemma ShapeNext<T>(r: seq<T>, k: nat, i: nat, key: T -> int)
    requires k <= i < |r|
    ensures var neg, pos := Negatives(r[k..i], key), NonNegatives(r[k..i], key);
            PlacedShape(r, k, i + 1, key)
            == if key(r[i]) < 0 then [r[i]] + (Reverse(neg) + r[..k] + pos) + r[i + 1..]
               else (Reverse(neg) + r[..k] + pos) + [r[i]] + r[i + 1..]
  {
    var neg, pos := Negatives(r[k..i], key), NonNegatives(r[k..i], key);
    assert r[k..i + 1] == r[k..i] + [r[i]];
    FiltersSnoc(r[k..i], r[i], key);
    if key(r[i]) < 0 {
      ReverseAppend(neg, r[i]);
      assert Reverse(Negatives(r[k..i + 1], key)) == [r[i]] + Reverse(neg);
      assert NonNegatives(r[k..i + 1], key) == pos;
    } else {
      assert Negatives(r[k..i + 1], key) == neg;
      assert NonNegatives(r[k..i + 1], key) == pos + [r[i]];
    }
  }

  /** Placing `r[i]` moves the shape from `i` to `i + 1`. */
  lemma PlaceOne<T(!new)>(r: seq<T>, k: nat, i: nat, cmp: Comparator<T>, key: T -> int)
    requires k <= i < |r|
    requires FirstArgumentOnly(cmp, key)
    ensures var b := PlacedShape(r, k, i, key);
            MoveTo(b, i, InsertionPoint(b, b[i], 0, i, cmp)) == PlacedShape(r, k, i + 1, key)
  {
    var b := PlacedShape(r, k, i, key);
    var prefix := Reverse(Negatives(r[k..i], key)) + r[..k] + NonNegatives(r[k..i], key);
    ShapeAt(r, k, i, key);
    ShapeNext(r, k, i, key);
    MoveToEnds(prefix, r[i], r[i + 1..]);
    assert b[i] == r[i];
    InsertionPointFirstArgumentOnly(b, b[i], 0, i, cmp, key);
  }

  lemma {:induction false} BinaryInsertionSortShape<T(!new)>(
    r: seq<T>, k: nat, i: nat, cmp: Comparator<T>, key: T -> int)
    requires k <= i <= |r|
    requires FirstArgumentOnly(cmp, key)
    ensures BinaryInsertionSort(PlacedShape(r, k, i, key), i, cmp) == PlacedShape(r, k, |r|, key)
    decreases |r| - i
  {
    if i < |r| {
      PlaceOne(r, k, i, cmp, key);
      BinaryInsertionSortShape(r, k, i + 1, cmp, key);
    }
  }

  /** Closed form of the sort under a first-argument-only comparator: after the
      leading run is made, later elements with a negative key end up in front
      of it in reverse order, the others after it in their original order. */
  lemma SortShapeFirstArgumentOnly<T(!new)>(a: seq<T>, cmp: Comparator<T>, key: T -> int)
    requires |a| >= 2
    requires FirstArgumentOnly(cmp, key)
    ensures var r, k := MakeRun(a, cmp), RunLength(a, cmp);
            Sort(a, cmp) == Reverse(Negatives(r[k..], key)) + r[..k] + NonNegatives(r[k..], key)
  {
    var r, k := MakeRun(a, cmp), RunLength(a, cmp);
    MakeRunMultiset(a, cmp);
    assert Negatives(r[k..k], key) == [] && NonNegatives(r[k..k], key) == [];
    assert PlacedShape(r, k, k, key) == r;
    BinaryInsertionSortShape(r, k, k, cmp, key);
    assert r[k..|r|] == r[k..];
  }

  /** A run extends to the end when every later element keeps its direction. */
  lemma {:induction false} RunEndReachesEnd<T(!new)>(
    a: seq<T>, cmp: Comparator<T>, key: T -> int, descending: bool, i: nat)
    requires 2 <= i <= |a|
    requires FirstArgumentOnly(cmp, key)
    requires forall j :: i <= j < |a| ==> (key(a[j]) < 0 <==> descending)
    ensures RunEnd(a, cmp, descending, i) == |a|
    decreases |a| - i
  {
    if i < |a| {
      assert cmp(a[i], a[i - 1]) == key(a[i]);
      RunEndReachesEnd(a, cmp, key, descending, i + 1);
    }
  }

  /** When no element after the first has a negative key, the array is one
      ascending run and sorting leaves it as it was. */
  lemma SortKeepsOrderWithoutNegativeKeys<T(!new)>(a: seq<T>, cmp: Comparator<T>, key: T -> int)
    requires FirstArgumentOnly(cmp, key)
    requires forall j :: 1 <= j < |a| ==> key(a[j]) >= 0
    ensures Sort(a, cmp) == a
  {
    if |a| >= 2 {
      assert cmp(a[1], a[0]) == key(a[1]);
      RunEndReachesEnd(a, cmp, key, false, 2);
    }
  }

  /** When every element after the first has a negative key, the array is one
      descending run and sorting reverses it. */
  lemma SortReversesWithOnlyNegativeKeys<T(!new)>(a: seq<T>, cmp: Comparator<T>, key: T -> int)
    requires FirstArgumentOnly(cmp, key)
    requires forall j :: 1 <= j < |a| ==> key(a[j]) < 0
    ensures Sort(a, cmp) == Reverse(a)
  {
    if |a| >= 2 {
      assert cmp(a[1], a[0]) == key(a[1]);
      RunEndReachesEnd(a, cmp, key, true, 2);
      assert a[..|a|] == a;
    }
  }
}

=== FILE: buff_events.dfy ===
/** The enchantment events: status effects (regeneration, poison, elemental
    bonus damage, paralysis, ...) queued as combat events. Each resolves by
    calling the enchantment — an external capability — and reports one
    combat result whose `targetDown` flag reads the HP left afterwards. */
module BuffEvents {
  import opened Common
  import opened Combat

  /** A combatant as the enchantment events see it: its HP and the ids of the
      members of its party. */
  datatype Battler = Battler(name: string, currentHp: int, party: seq<nat>)

  /** Every combatant, by id. */
  type Roster = map<nat, Battler>

  /** The positional arguments of `applyEnchantment`; an absent trailing
      argument is `None`. */
  datatype EnchantmentArgs = EnchantmentArgs(
    subject: nat,
    source: Option<nat>,
    subjectParty: Option<seq<nat>>,
    sourceParty: Option<seq<nat>>)

  /** What `applyEnchantment` returns, plus the HP it wrote: `hp` maps the id of
      each combatant whose `currentHp` it set to the new value. */
  datatype EnchantmentEffect = EnchantmentEffect(
    value: int,
    color: string,
    affected: seq<nat>,
    hp: map<nat, int>)

  /** The enchantment capability, which lives outside the engine. */
  type Enchantment = (EnchantmentArgs, Roster) -> EnchantmentEffect

  datatype EnchantmentEvent =
    | Buff(enchanted: nat, orientation: Orientation)
    | PostTurn(enchanted: nat, enchantedParty: seq<nat>, orientation: Orientation)
    | PostAttack(enchanted: nat, target: nat, orientation: Orientation)
    | PreAttack(enchanted: nat, target: nat, orientation: Orientation)

  /** The fields every enchantment event hands to the base combat event. */
  datatype BaseEvent = BaseEvent(
    executor: nat,
    target: Option<nat>,
    action: Option<CombatAction>,
    orientation: Orientation)

  datatype CombatResult = CombatResult(
    actionType: CombatAction,
    executor: Option<nat>,
    target: Option<nat>,
    resultingValue: int,
    targetDown: bool)

  /** What `executeAction` resolves with, the combatants combat text was
      played over, and the roster afterwards. */
  datatype Resolution = Resolution(results: seq<CombatResult>, texts: seq<nat>, roster: Roster)

  /** The base event each enchantment event constructs: the enchanted
      combatant as executor, no target and no action. */
  function Base(ev: EnchantmentEvent): (b: BaseEvent)
    ensures b.executor == ev.enchanted && b.orientation == ev.orientation
    ensures b.target == None && b.action == None
  {
    BaseEvent(ev.enchanted, None, None, ev.orientation)
  }

  /** The ids an event refers to are all known. */
  ghost predicate Knows(ev: EnchantmentEvent, roster: Roster) {
    && ev.enchanted in roster
    && (ev.PostAttack? || ev.PreAttack? ==> ev.target in roster)
  }

  /** The arguments each event passes to the enchantment. */
  function Args(ev: EnchantmentEvent, roster: Roster): (a: EnchantmentArgs)
    requires Knows(ev, roster) && !ev.Buff?
    ensures a.subject == ev.enchanted
    ensures ev.PostTurn? ==> a.source == None && a.subjectParty == Some(ev.enchantedParty) && a.sourceParty == None
    ensures ev.PostAttack? ==>
              && a.source == Some(ev.target)
              && a.subjectParty == Some(roster[ev.enchanted].party)
              && a.sourceParty == Some(roster[ev.target].party)
    ensures ev.PreAttack? ==> a.source == None && a.subjectParty == None && a.sourceParty == None
  {
    match ev
    case PostTurn(e, party, _) => EnchantmentArgs(e, None, Some(party), None)
    case PostAttack(e, t, _) => EnchantmentArgs(e, Some(t), Some(roster[e].party), Some(roster[t].party))
    case PreAttack(e, _, _) => EnchantmentArgs(e, None, None, None)
  }

  /** The roster after the enchantment's HP writes. */
  function ApplyHp(roster: Roster, hp: map<nat, int>): (r: Roster)
    ensures r.Keys == roster.Keys
    ensures forall id :: id in roster ==>
              r[id] == if id in hp then roster[id].(currentHp := hp[id]) else roster[id]
  {
    map id | id in roster :: if id in hp then roster[id].(currentHp := hp[id]) else roster[id]
  }

  /** The affected combatants still standing, in order. */
  function Standing(ids: seq<nat>, roster: Roster): (r: seq<nat>)
    requires forall id :: id in ids ==> id in roster
  {
    if |ids| == 0 then []
    else (if roster[ids[0]].currentHp > 0 then [ids[0]] else []) + Standing(ids[1..], roster)
  }

  lemma {:induction false} StandingMembers(ids: seq<nat>, roster: Roster)
    requires forall id :: id in ids ==> id in roster
    ensures forall id :: id in Standing(ids, roster) <==> id in ids && roster[id].currentHp > 0
    ensures |Standing(ids, roster)| <= |ids|
  {
    if |ids| > 0 {
      assert forall id :: id in ids[1..] ==> id in ids;
      StandingMembers(ids[1..], roster);
      assert forall id :: id in ids <==> id == ids[0] || id in ids[1..];
    }
  }

  /** The combatant whose HP the result's `targetDown` flag reads. */
  function DownFlagReads(ev: EnchantmentEvent): nat
    requires !ev.Buff?
  {
    if ev.PostTurn? then ev.enchanted else ev.target
  }

  /** `executeAction` of the three enchantment events. */
  function ExecuteAction(ev: EnchantmentEvent, enchantment: Enchantment, roster: Roster): (r: Resolution)
    requires Knows(ev, roster) && !ev.Buff?
    requires forall id :: id in enchantment(Args(ev, roster), roster).affected ==> id in roster
    ensures var effect := enchantment(Args(ev, roster), roster);
            && r.roster == ApplyHp(roster, effect.hp)
            && |r.results| == 1
            && r.results[0].actionType == Enchantment
            && r.results[0].resultingValue == effect.value
            && (r.results[0].targetDown <==> r.roster[DownFlagReads(ev)].currentHp <= 0)
    ensures ev.PostTurn? ==> r.results[0].executor == None && r.results[0].target == Some(ev.enchanted)
    ensures ev.PostAttack? || ev.PreAttack? ==>
              r.results[0].executor == Some(ev.enchanted) && r.results[0].target == Some(ev.target)
    ensures ev.PostTurn? || ev.PreAttack? ==> r.texts == [ev.enchanted]
    ensures ev.PostAttack? ==>
              forall id :: id in r.texts <==>
                id in enchantment(Args(ev, roster), roster).affected && r.roster[id].currentHp > 0
  {
    var effect := enchantment(Args(ev, roster), roster);
    var after := ApplyHp(roster, effect.hp);
    match ev
    case PostTurn(e, _, _) =>
      Resolution([CombatResult(Enchantment, None, Some(e), effect.value, after[e].currentHp <= 0)], [e], after)
    case PostAttack(e, t, _) =>
      StandingMembers(effect.affected, after);
      Resolution([CombatResult(Enchantment, Some(e), Some(t), effect.value, after[t].currentHp <= 0)],
                 Standing(effect.affected, after), after)
    case PreAttack(e, t, _) =>
      Resolution([CombatResult(Enchantment, Some(e), Some(t), effect.value, after[t].currentHp <= 0)], [e], after)
  }

  /** How the resolved result relates to the base event: the enchanted
      combatant the base names as executor stays the executor of an attack
      enchantment's result, which also gains the target the base leaves out;
      a post-turn result names the enchanted combatant as its target and has
      no executor. */
  lemma ResultFollowsBase(ev: EnchantmentEvent, enchantment: Enchantment, roster: Roster)
    requires Knows(ev, roster) && !ev.Buff?
    requires forall id :: id in enchantment(Args(ev, roster), roster).affected ==> id in roster
    ensures var b := Base(ev);
            var res := ExecuteAction(ev, enchantment, roster).results[0];
            && b.target == None && b.action == None
            && res.actionType == Enchantment
            && (ev.PostTurn? ==> res.executor == None && res.target == Some(b.executor))
            && (!ev.PostTurn? ==> res.executor == Some(b.executor) && res.target.Some? && res.target.value in roster)
  {
  }

  /** A pre-attack enchantment is applied to the enchanted combatant alone, but
      its result's `targetDown` reports the stored target: when the
      enchantment leaves the target's HP alone, the flag is the target's HP
      before the event, whatever happened to the enchanted combatant. */
  lemma PreAttackDownIgnoresEnchanted(e: nat, t: nat, o: Orientation, enchantment: Enchantment, roster: Roster)
    requires e in roster && t in roster
    requires forall id :: id in enchantment(EnchantmentArgs(e, None, None, None), roster).affected ==> id in roster
    requires t !in enchantment(EnchantmentArgs(e, None, None, None), roster).hp
    ensures ExecuteAction(PreAttack(e, t, o), enchantment, roster).results[0].targetDown
            <==> roster[t].currentHp <= 0
  {
  }

  /** A post-turn poison of -5 on a combatant at 3 HP downs it, although no
      attack targeted it. */
  lemma PostTurnPoisonDowns(e: nat, party: seq<nat>, o: Orientation, roster: Roster)
    requires e in roster && roster[e].currentHp == 3
    ensures var poison := (args: EnchantmentArgs, r: Roster) =>
              EnchantmentEffect(-5, "green", [args.subject],
                                if args.subject in r then map[args.subject := r[args.subject].currentHp - 5] else map[]);
            var res := ExecuteAction(PostTurn(e, party, o), poison, roster);
            res.results == [CombatResult(Enchantment, None, Some(e), -5, true)]
  {
  }
}

=== FILE: combat.dfy ===
/** The battle round engine: a party-focus cursor, a queue of combat events
    and the two rosters. Each operation of the engine is a pure step from one
    battle state to the next; the timers that pace the animations are left
    out, so one event's resolution is one atomic step. */
module Combat {
  import opened Common
  import ArraySort

  /** Direction of the attack animation's nudge; presentation only. */
  datatype Orientation = OrientLeft | OrientRight

  /** What an event does; enchantment events carry `Enchantment`. */
  datatype CombatAction = Attack | Defend | UseItem | Enchantment

  /** A combatant's sprite: its identity plus the attributes that stay fixed
      for the whole battle. */
  datatype Sprite = Sprite(id: nat, name: string, dexterity: int)

  /** The resources event resolution changes. */
  datatype Vitals = Vitals(currentHp: int, maxHp: int)

  /** Every combatant's current resources, by sprite id. */
  type World = map<nat, Vitals>

  datatype CombatEvent = CombatEvent(
    executor: Sprite,
    target: Sprite,
    action: CombatAction,
    orientation: Orientation)

  datatype CombatState = CombatState(
    events: seq<CombatEvent>,
    party: seq<Sprite>,
    enemies: seq<Sprite>,
    focus: int,
    world: World)

  /** What the damage formula (`executor.attackTarget(target)`) reports: the
      signed value it applied and the target's resources afterwards. */
  datatype AttackOutcome = AttackOutcome(resultingValue: int, targetAfter: Vitals)

  /** The damage formula, which lives outside the engine. */
  type AttackFormula = (Sprite, Vitals, Sprite, Vitals) -> AttackOutcome

  /** The object an event's `executeAction` resolves with. */
  datatype ActionResult = ActionResult(
    target: Sprite,
    executor: Sprite,
    resultingValue: int,
    world: World)

  /** Every sprite the state mentions has resources, and there is a party
      member to take the first input. Sprites compare by value here, where the
      code compares objects with `===`; two distinct combatants are assumed to
      differ in some field (their ids, in practice), which `Valid` does not
      demand. */
  ghost predicate Valid(c: CombatState) {
    && |c.party| > 0
    && (forall s :: s in c.party ==> s.id in c.world)
    && (forall s :: s in c.enemies ==> s.id in c.world)
    && (forall e :: e in c.events ==> e.executor.id in c.world && e.target.id in c.world)
  }

  // ---------------------------------------------------------------------------
  // Input focus
  // ---------------------------------------------------------------------------

  /** Moves input to the next party member; reports whether there was one. */
  function FocusNextPartyInput(c: CombatState): (r: (CombatState, bool))
    ensures r.1 <==> c.focus < |c.party| - 1
    ensures r.0.focus == if r.1 then c.focus + 1 else c.focus
    ensures r.0 == c.(focus := r.0.focus)
    ensures 0 <= c.focus < |c.party| ==> 0 <= r.0.focus < |c.party|
  {
    var count := |c.party| - 1;
    if c.focus < count then (c.(focus := c.focus + 1), true)
    else (c, false)
  }

  /** `Array.prototype.pop`: drops the last element; an empty array stays empty. */
  function Pop<T>(s: seq<T>): (r: seq<T>)
    ensures |s| > 0 ==> r == s[..|s| - 1]
    ensures |s| == 0 ==> r == []
  {
    if |s| == 0 then [] else s[..|s| - 1]
  }

  /** Retreat to the previous party member, with the guard as the code has it:
      it acts only when the focus is already at (or below) the first member. */
  function FocusPreviousPartyInput(c: CombatState): (r: (CombatState, bool))
    ensures c.focus > 0 ==> !r.1 && r.0 == c
    ensures c.focus <= 0 ==> r.1 && r.0 == c.(focus := c.focus - 1, events := Pop(c.events))
  {
    if c.focus <= 0 then (c.(focus := c.focus - 1, events := Pop(c.events)), true)
    else (c, false)
  }

  /** The retreat the comment above `focusPreviousPartyInput` describes: step
      back one member and drop the event that member queued; at the first
      member it does nothing. */
  function FocusPreviousIntended(c: CombatState): (r: (CombatState, bool))
    ensures r.1 <==> c.focus > 0
    ensures r.1 ==> r.0 == c.(focus := c.focus - 1, events := Pop(c.events))
    ensures r.1 ==> |r.0.events| == if |c.events| > 0 then |c.events| - 1 else 0
    ensures !r.1 ==> r.0 == c
    ensures c.focus >= 0 ==> r.0.focus >= 0
  {
    if c.focus > 0 then (c.(focus := c.focus - 1, events := Pop(c.events)), true)
    else (c, false)
  }

  function ResetPartyFocusIndex(c: CombatState): (r: CombatState)
    ensures r.focus == 0
    ensures r.events == c.events && r.party == c.party && r.enemies == c.enemies && r.world == c.world
  {
    c.(focus := 0)
  }

  /** `n` successive `focusNextPartyInput` calls: input advances `n` members
      and stops at the last one. */
  function FocusNextTimes(c: CombatState, n: nat): (r: CombatState)
    ensures r == c.(focus := r.focus)
    ensures c.focus <= |c.party| - 1 ==>
              r.focus == if c.focus + n < |c.party| - 1 then c.focus + n else |c.party| - 1
    decreases n
  {
    if n == 0 then c else FocusNextTimes(FocusNextPartyInput(c).0, n - 1)
  }

  /** However far input has advanced, resetting brings it back to the state
      the reset of the starting state gives. */
  lemma {:induction false} ResetUndoesAdvance(c: CombatState, n: nat)
    ensures ResetPartyFocusIndex(FocusNextTimes(c, n)) == ResetPartyFocusIndex(c)
    decreases n
  {
    if n > 0 {
      ResetUndoesAdvance(FocusNextPartyInput(c).0, n - 1);
    }
  }

  // ---------------------------------------------------------------------------
  // Building the round queue
  // ---------------------------------------------------------------------------

  function AddEvent(c: CombatState, e: CombatEvent): (r: CombatState)
    ensures |r.events| == |c.events| + 1 && r.events[|c.events|] == e
    ensures r.events[..|c.events|] == c.events
    ensures r == c.(events := r.events)
  {
    c.(events := c.events + [e])
  }

  /** The attack each enemy from index `i` on declares against `target`. */
  function EnemyAttacks(enemies: seq<Sprite>, target: Sprite): (r: seq<CombatEvent>)
    ensures |r| == |enemies|
    ensures forall i :: 0 <= i < |enemies| ==> r[i] == CombatEvent(enemies[i], target, Attack, OrientRight)
  {
    if |enemies| == 0 then []
    else [CombatEvent(enemies[0], target, Attack, OrientRight)] + EnemyAttacks(enemies[1..], target)
  }

  lemma EnemyAttacksFrom(enemies: seq<Sprite>, i: nat, target: Sprite)
    requires i < |enemies|
    ensures EnemyAttacks(enemies[i..], target)
            == [CombatEvent(enemies[i], target, Attack, OrientRight)] + EnemyAttacks(enemies[i + 1..], target)
  {
    assert enemies[i..][1..] == enemies[i + 1..];
  }

  /** Adds, one `addEvent` at a time, the attacks of `enemies[i..]`. */
  function ApplyEnemyTurnsFrom(c: CombatState, i: nat): (r: CombatState)
    requires i <= |c.enemies| && |c.party| > 0
    ensures r.events == c.events + EnemyAttacks(c.enemies[i..], c.party[0])
    ensures r.party == c.party && r.enemies == c.enemies && r.focus == c.focus && r.world == c.world
    decreases |c.enemies| - i
  {
    if i == |c.enemies| then c
    else
      var e := CombatEvent(c.enemies[i], c.party[0], Attack, OrientRight);
      var r := ApplyEnemyTurnsFrom(AddEvent(c, e), i + 1);
      EnemyAttacksFrom(c.enemies, i, c.party[0]);
      assert c.events + [e] + EnemyAttacks(c.enemies[i + 1..], c.party[0])
          == c.events + EnemyAttacks(c.enemies[i..], c.party[0]);
      r
  }

  /** Every enemy appends one attack on the first party member, in roster order. */
  function ApplyEnemyTurns(c: CombatState): (r: CombatState)
    requires |c.party| > 0
    ensures |r.events| == |c.events| + |c.enemies|
    ensures r.events[..|c.events|] == c.events
    ensures forall i :: 0 <= i < |c.enemies| ==>
              r.events[|c.events| + i] == CombatEvent(c.enemies[i], c.party[0], Attack, OrientRight)
    ensures r.party == c.party && r.enemies == c.enemies && r.focus == c.focus && r.world == c.world
  {
    assert c.enemies[0..] == c.enemies;
    ApplyEnemyTurnsFrom(c, 0)
  }

  // ---------------------------------------------------------------------------
  // Ordering the round queue
  // ---------------------------------------------------------------------------

  /** The only quantity the queue's comparator reads. */
  function SpeedKey(e: CombatEvent): int {
    e.executor.dexterity - e.target.dexterity
  }

  /** The comparator `sortEventsBySpeed` passes to `sort`: it reads its first
      argument only. */
  function SpeedComparator(a: CombatEvent, b: CombatEvent): (r: int)
    ensures r < 0 <==> a.executor.dexterity < a.target.dexterity
    ensures r == 0 <==> a.executor.dexterity == a.target.dexterity
  {
    a.executor.dexterity - a.target.dexterity
  }

  lemma SpeedComparatorReadsFirstArgumentOnly()
    ensures ArraySort.FirstArgumentOnly(SpeedComparator, SpeedKey)
  {
  }

  function SortEventsBySpeed(c: CombatState): (r: CombatState)
    ensures multiset(r.events) == multiset(c.events)
    ensures |r.events| == |c.events|
    ensures r == c.(events := r.events)
    ensures Valid(c) ==> Valid(r)
  {
    ArraySort.SortIsPermutation(c.events, SpeedComparator);
    var r := c.(events := ArraySort.Sort(c.events, SpeedComparator));
    assert forall e :: e in r.events ==> e in multiset(c.events);
    r
  }

  // ---------------------------------------------------------------------------
  // Resolving events
  // ---------------------------------------------------------------------------

  /** `CombatEvent.executeAction`: the executor attacks the target whatever the
      event's action, and the result names both sprites. */
  function ExecuteAction(e: CombatEvent, w: World, attack: AttackFormula): (r: ActionResult)
    requires e.executor.id in w && e.target.id in w
    ensures r.target == e.target && r.executor == e.executor
    ensures r.world.Keys == w.Keys
    ensures forall id :: id in w && id != e.target.id ==> r.world[id] == w[id]
    ensures r.world[e.target.id] == attack(e.executor, w[e.executor.id], e.target, w[e.target.id]).targetAfter
  {
    var outcome := attack(e.executor, w[e.executor.id], e.target, w[e.target.id]);
    ActionResult(e.target, e.executor, outcome.resultingValue, w[e.target.id := outcome.targetAfter])
  }

  /** `Array.prototype.findIndex` with sprite identity: the first index holding
      `x`, or -1. */
  function FindIndex(s: seq<Sprite>, x: Sprite): (i: int)
    ensures -1 <= i < |s|
    ensures i == -1 <==> x !in s
    ensures 0 <= i ==> s[i] == x && forall j :: 0 <= j < i ==> s[j] != x
  {
    if |s| == 0 then -1
    else if s[0] == x then 0
    else
      var j := FindIndex(s[1..], x);
      if j == -1 then -1 else j + 1
  }

  /** `s.splice(start, 1)` on the array `s`: a negative start counts from the
      end, a start past the end removes nothing. */
  function Splice1<T>(s: seq<T>, start: int): (r: seq<T>)
    ensures |s| > 0 && -|s| <= start < |s| ==> |r| == |s| - 1
    ensures 0 <= start < |s| ==> r == s[..start] + s[start + 1..]
    ensures start == -1 && |s| > 0 ==> r == s[..|s| - 1]
    ensures |s| == 0 || start >= |s| ==> r == s
    ensures multiset(r) <= multiset(s)
  {
    var from := if start < 0 then (if |s| + start < 0 then 0 else |s| + start)
                else (if start > |s| then |s| else start);
    if from < |s| then
      assert s == s[..from] + [s[from]] + s[from + 1..];
      s[..from] + s[from + 1..]
    else s
  }

  /** The roster after a downed target is spliced out as the code does it:
      `enemies.splice(enemies.findIndex(e => e === target), 1)`. A target that
      is not an enemy makes the index -1, and the splice drops the last enemy. */
  function RemoveDownedAsWritten(enemies: seq<Sprite>, target: Sprite): (r: seq<Sprite>)
    ensures target in enemies ==>
              r == enemies[..FindIndex(enemies, target)] + enemies[FindIndex(enemies, target) + 1..]
    ensures target !in enemies ==> r == Pop(enemies)
    ensures multiset(r) <= multiset(enemies)
  {
    Splice1(enemies, FindIndex(enemies, target))
  }

  /** The removal the engine evidently intends: take the downed target out of
      the roster if it is there, and leave the roster alone otherwise. */
  function RemoveDownedIntended(enemies: seq<Sprite>, target: Sprite): (r: seq<Sprite>)
    ensures target in enemies ==>
              r == enemies[..FindIndex(enemies, target)] + enemies[FindIndex(enemies, target) + 1..]
    ensures target !in enemies ==> r == enemies
    ensures multiset(r) == multiset(enemies) - multiset{target}
  {
    var i := FindIndex(enemies, target);
    if i == -1 then enemies
    else
      assert enemies == enemies[..i] + [enemies[i]] + enemies[i + 1..];
      enemies[..i] + enemies[i + 1..]
  }

  /** The two removals differ exactly when the downed sprite is not an enemy
      and the roster is not empty. */
  lemma RemovalsAgreeUnlessTargetAbsent(enemies: seq<Sprite>, target: Sprite)
    ensures RemoveDownedAsWritten(enemies, target) == RemoveDownedIntended(enemies, target)
            <==> target in enemies || |enemies| == 0
  {
    if target !in enemies && |enemies| > 0 {
      assert |RemoveDownedAsWritten(enemies, target)| < |RemoveDownedIntended(enemies, target)|;
    }
  }

  /** Which removal a downed target goes through: the code's splice, or the
      removal of the target alone. */
  datatype Removal = SpliceAsWritten | TargetOnly

  function RemoveDowned(removal: Removal, enemies: seq<Sprite>, target: Sprite): (r: seq<Sprite>)
    ensures target in enemies ==>
              r == enemies[..FindIndex(enemies, target)] + enemies[FindIndex(enemies, target) + 1..]
    ensures target !in enemies ==> r == if removal == SpliceAsWritten then Pop(enemies) else enemies
    ensures removal == TargetOnly ==> multiset(r) == multiset(enemies) - multiset{target}
    ensures multiset(r) <= multiset(enemies)
    ensures forall x :: x in r ==> x in enemies
  {
    var r := if removal == SpliceAsWritten then RemoveDownedAsWritten(enemies, target)
             else RemoveDownedIntended(enemies, target);
    SubMultisetMembers(r, enemies);
    r
  }

  /** What one call of `startLoop` does. */
  datatype LoopStep =
    | Idle(state: CombatState)
      // the queue was empty: input is rebuilt and `startLoop` returns false
    | Resolved(state: CombatState, event: CombatEvent, downed: bool, endBattle: bool)
      // the last event was popped and resolved; `endBattle` is the emission of 'end-battle'

  /** One `startLoop` call, with the resolution of the popped event as one
      step. With `SpliceAsWritten` a downed target leaves the roster through
      the code's splice; with `TargetOnly` through the evidently intended
      removal. */
  function StartLoop(c: CombatState, attack: AttackFormula, removal: Removal): (r: LoopStep)
    requires Valid(c)
    ensures |c.events| == 0 <==> r.Idle?
    ensures r.Idle? ==> r.state == c
    ensures r.Resolved? ==>
              && r.event == c.events[|c.events| - 1]
              && r.state.events == c.events[..|c.events| - 1]
              && r.state.party == c.party && r.state.focus == c.focus
              && Valid(r.state)
    ensures r.Resolved? ==> r.state.world == ExecuteAction(r.event, c.world, attack).world
    ensures r.Resolved? ==>
              && r.event.target.id in r.state.world
              && (r.downed <==> r.state.world[r.event.target.id].currentHp == 0)
    ensures r.Resolved? && !r.downed ==> r.state.enemies == c.enemies
    ensures r.Resolved? && r.downed && r.event.target in c.enemies ==>
              var i := FindIndex(c.enemies, r.event.target);
              r.state.enemies == c.enemies[..i] + c.enemies[i + 1..]
    ensures r.Resolved? && r.downed && r.event.target !in c.enemies ==>
              r.state.enemies == if removal == SpliceAsWritten then Pop(c.enemies) else c.enemies
    ensures r.Resolved? && r.downed && removal == TargetOnly ==>
              multiset(r.state.enemies) == multiset(c.enemies) - multiset{r.event.target}
    ensures r.Resolved? ==> multiset(r.state.enemies) <= multiset(c.enemies)
    ensures r.Resolved? ==> (r.endBattle <==> r.downed && |r.state.enemies| == 0)
  {
    if |c.events| == 0 then Idle(c)
    else
      var e := c.events[|c.events| - 1];
      assert e in c.events;
      var result := ExecuteAction(e, c.world, attack);
      var downed := result.world[result.target.id].currentHp == 0;
      var enemies := if downed then RemoveDowned(removal, c.enemies, result.target) else c.enemies;
      var next := c.(events := c.events[..|c.events| - 1], enemies := enemies, world := result.world);
      ResolutionKeepsValid(c, enemies, result.world);
      Resolved(next, e, downed, downed && |enemies| <= 0)
  }

  /** Popping an event, shrinking the roster and rewriting HP records keeps
      every mentioned sprite's record. */
  lemma ResolutionKeepsValid(c: CombatState, enemies: seq<Sprite>, world: World)
    requires Valid(c) && |c.events| > 0
    requires forall x :: x in enemies ==> x in c.enemies
    requires world.Keys == c.world.Keys
    ensures Valid(c.(events := c.events[..|c.events| - 1], enemies := enemies, world := world))
  {
    assert forall x :: x in c.events[..|c.events| - 1] ==> x in c.events;
  }

  /** The reference for a round's effect on HP: each event's attack applied in
      turn to the world, with no roster bookkeeping at all. */
  function ApplyAll(events: seq<CombatEvent>, w: World, attack: AttackFormula): (r: World)
    requires forall e :: e in events ==> e.executor.id in w && e.target.id in w
    ensures r.Keys == w.Keys
    ensures forall id :: id in w && (forall e :: e in events ==> e.target.id != id) ==> r[id] == w[id]
    decreases |events|
  {
    if |events| == 0 then w
    else
      var w1 := ExecuteAction(events[0], w, attack).world;
      assert forall e :: e in events[1..] ==> e in events;
      ApplyAll(events[1..], w1, attack)
  }

  /** The whole chain of `startLoop` calls that one round sets off: each
      resolution's completion calls `startLoop` again until the queue is empty. */
  datatype Drained = Drained(state: CombatState, resolved: seq<CombatEvent>, endings: nat)

  function Drain(c: CombatState, attack: AttackFormula, removal: Removal): (r: Drained)
    requires Valid(c)
    ensures r.state.events == []
    ensures r.resolved == Reverse(c.events)
    ensures r.state.party == c.party && r.state.focus == c.focus
    ensures multiset(r.state.enemies) <= multiset(c.enemies)
    ensures r.endings > 0 ==> r.state.enemies == []
    ensures Valid(r.state)
    decreases |c.events|
  {
    match StartLoop(c, attack, removal)
    case Idle(s) => Drained(s, [], 0)
    case Resolved(s, e, _, endBattle) =>
      var rest := Drain(s, attack, removal);
      SplitLast(c.events);
      ReverseAppend(s.events, e);
      assert endBattle ==> s.enemies == [] && multiset(rest.state.enemies) <= multiset{};
      Drained(rest.state, [e] + rest.resolved, rest.endings + (if endBattle then 1 else 0))
  }

  /** Roster bookkeeping never touches HP: the world a round leaves is the
      world every popped event's attack, applied in pop order, leaves. */
  lemma {:induction false} DrainAppliesEveryAttack(c: CombatState, attack: AttackFormula, removal: Removal)
    requires Valid(c)
    ensures Drain(c, attack, removal).state.world == ApplyAll(Reverse(c.events), c.world, attack)
    decreases |c.events|
  {
    var step := StartLoop(c, attack, removal);
    if step.Resolved? {
      var s, e := step.state, step.event;
      DrainAppliesEveryAttack(s, attack, removal);
      SplitLast(c.events);
      ReverseAppend(s.events, e);
      assert ([e] + Reverse(s.events))[1..] == Reverse(s.events);
    }
  }

  /** If the round empties a non-empty enemy roster, 'end-battle' was emitted. */
  lemma {:induction false} DrainEmitsEndWhenRosterEmpties(c: CombatState, attack: AttackFormula, removal: Removal)
    requires Valid(c)
    requires |c.enemies| > 0 && |Drain(c, attack, removal).state.enemies| == 0
    ensures Drain(c, attack, removal).endings >= 1
    decreases |c.events|
  {
    var step := StartLoop(c, attack, removal);
    if step.Resolved? {
      if !step.endBattle {
        assert |step.state.enemies| > 0;
        DrainEmitsEndWhenRosterEmpties(step.state, attack, removal);
      }
    }
  }

  // ---------------------------------------------------------------------------
  // Input choices and the round
  // ---------------------------------------------------------------------------

  /** The options of the input menu. Defend and Item have empty handlers. */
  datatype Choice = AttackTarget(target: Sprite) | ChooseDefend | ChooseItem | Run

  datatype Outcome =
    | AwaitingInput(state: CombatState)
      // the menu (for the focused member) is waiting for a choice
    | Fled(state: CombatState)
      // 'end-battle' was emitted by the Run option
    | RoundOver(state: CombatState, resolved: seq<CombatEvent>, endings: nat)
      // the round was resolved; `endings` counts the 'end-battle' emissions

  /** The enemies' declared attacks mention only sprites of the rosters. */
  lemma EnemyTurnsKeepValid(c: CombatState)
    requires Valid(c)
    ensures Valid(ApplyEnemyTurns(c))
    ensures ApplyEnemyTurns(c).events == c.events + EnemyAttacks(c.enemies, c.party[0])
  {
    var r := ApplyEnemyTurns(c);
    assert c.enemies[0..] == c.enemies;
    assert r.events == c.events + EnemyAttacks(c.enemies, c.party[0]);
    assert c.party[0] in c.party;
    forall e | e in r.events
      ensures e.executor.id in r.world && e.target.id in r.world
    {
      if e !in c.events {
        var i :| 0 <= i < |r.events| && r.events[i] == e;
        assert c.enemies[i - |c.events|] in c.enemies;
      }
    }
  }

  /** What happens once the last member has confirmed: enemy turns are
      appended, the queue is sorted and the loop is started. */
  function ResolveRound(c: CombatState, attack: AttackFormula, removal: Removal): (r: Drained)
    requires Valid(c)
    ensures r.state.events == [] && r.state.party == c.party && r.state.focus == c.focus
    ensures multiset(r.resolved) == multiset(c.events + EnemyAttacks(c.enemies, c.party[0]))
    ensures |r.resolved| == |c.events| + |c.enemies|
    ensures multiset(r.state.enemies) <= multiset(c.enemies)
    ensures r.endings > 0 ==> r.state.enemies == []
    ensures Valid(r.state)
  {
    var c2 := ApplyEnemyTurns(c);
    EnemyTurnsKeepValid(c);
    var c3 := SortEventsBySpeed(c2);
    var d := Drain(c3, attack, removal);
    ReverseMultiset(c3.events);
    assert |c2.events| == |c.events| + |c.enemies|;
    d
  }

  /** `confirmSelection`: either ask the next member, or resolve the round and
      reset the focus. */
  function ConfirmSelection(c: CombatState, attack: AttackFormula, removal: Removal): (r: Outcome)
    requires Valid(c)
    ensures r.AwaitingInput? || r.RoundOver?
    ensures r.AwaitingInput? <==> c.focus < |c.party| - 1
    ensures r.AwaitingInput? ==> r.state == c.(focus := c.focus + 1)
    ensures r.RoundOver? ==>
              && r.state.focus == 0 && r.state.events == [] && r.state.party == c.party
              && multiset(r.resolved) == multiset(c.events + EnemyAttacks(c.enemies, c.party[0]))
              && |r.resolved| == |c.events| + |c.enemies|
              && multiset(r.state.enemies) <= multiset(c.enemies)
              && Valid(r.state)
  {
    var next := FocusNextPartyInput(c);
    if next.1 then AwaitingInput(next.0)
    else
      var d := ResolveRound(next.0, attack, removal);
      RoundOver(ResetPartyFocusIndex(d.state), d.resolved, d.endings)
  }

  /** The focused member's menu choice. */
  function Choose(c: CombatState, choice: Choice, attack: AttackFormula, removal: Removal): (r: Outcome)
    requires Valid(c)
    requires choice.AttackTarget? ==> 0 <= c.focus < |c.party| && choice.target.id in c.world
    ensures choice.Run? <==> r.Fled?
    ensures choice.Run? || choice.ChooseDefend? || choice.ChooseItem? ==> r.state == c
    ensures choice.AttackTarget? && c.focus < |c.party| - 1 ==>
              r == AwaitingInput(c.(focus := c.focus + 1,
                events := c.events + [CombatEvent(c.party[c.focus], choice.target, Attack, OrientLeft)]))
    ensures choice.AttackTarget? && c.focus == |c.party| - 1 ==>
              && r.RoundOver?
              && r.state.focus == 0 && r.state.events == [] && r.state.party == c.party
              && multiset(r.resolved)
                 == multiset(c.events + [CombatEvent(c.party[c.focus], choice.target, Attack, OrientLeft)]
                             + EnemyAttacks(c.enemies, c.party[0]))
              && |r.resolved| == |c.events| + 1 + |c.enemies|
  {
    match choice
    case AttackTarget(t) =>
      var e := CombatEvent(c.party[c.focus], t, Attack, OrientLeft);
      assert c.party[c.focus] in c.party;
      ConfirmSelection(AddEvent(c, e), attack, removal)
    case ChooseDefend => AwaitingInput(c)
    case ChooseItem => AwaitingInput(c)
    case Run => Fled(c)
  }

  /** Menu input makes sense only for the focused member of a valid state. */
  ghost predicate ReadyForInput(c: CombatState, targets: seq<Sprite>) {
    && Valid(c)
    && 0 <= c.focus < |c.party|
    && (forall t :: t in targets ==> t.id in c.world)
  }

  /** Every member from the focused one on chooses to attack `targets[i]`. */
  function CollectAttacks(c: CombatState, targets: seq<Sprite>, attack: AttackFormula, removal: Removal): (r: Outcome)
    requires ReadyForInput(c, targets)
    ensures r.AwaitingInput? || r.RoundOver?
    decreases |targets|
  {
    if |targets| == 0 then AwaitingInput(c)
    else
      var e := CombatEvent(c.party[c.focus], targets[0], Attack, OrientLeft);
      match Choose(c, AttackTarget(targets[0]), attack, removal)
      case AwaitingInput(s) =>
        assert s == c.(focus := c.focus + 1, events := c.events + [e]);
        assert c.party[c.focus] in c.party;
        assert Valid(s);
        CollectAttacks(s, targets[1..], attack, removal)
      case other => other
  }

  /** The attacks the members `party[..]` declare against `targets`, in order. */
  function PartyAttacks(party: seq<Sprite>, targets: seq<Sprite>): (r: seq<CombatEvent>)
    requires |targets| == |party|
    ensures |r| == |party|
  {
    if |party| == 0 then []
    else [CombatEvent(party[0], targets[0], Attack, OrientLeft)] + PartyAttacks(party[1..], targets[1..])
  }

  lemma {:induction false} CollectAttacksResolvesRound(c: CombatState, targets: seq<Sprite>, attack: AttackFormula, removal: Removal)
    requires ReadyForInput(c, targets)
    requires |targets| == |c.party| - c.focus
    ensures var r := CollectAttacks(c, targets, attack, removal);
            && r.RoundOver?
            && r.state.focus == 0 && r.state.events == [] && r.state.party == c.party
            && multiset(r.resolved)
               == multiset(c.events + PartyAttacks(c.party[c.focus..], targets) + EnemyAttacks(c.enemies, c.party[0]))
    decreases |targets|
  {
    var e := CombatEvent(c.party[c.focus], targets[0], Attack, OrientLeft);
    var c' := AddEvent(c, e);
    assert c.party[c.focus] in c.party;
    assert c.party[c.focus..] == [c.party[c.focus]] + c.party[c.focus + 1..];
    assert PartyAttacks(c.party[c.focus..], targets) == [e] + PartyAttacks(c.party[c.focus + 1..], targets[1..]);
    assert c.events + PartyAttacks(c.party[c.focus..], targets)
        == c'.events + PartyAttacks(c.party[c.focus + 1..], targets[1..]);
    if c.focus < |c.party| - 1 {
      var s := c.(focus := c.focus + 1, events := c.events + [e]);
      assert Choose(c, AttackTarget(targets[0]), attack, removal) == AwaitingInput(s);
      assert forall t :: t in targets[1..] ==> t in targets;
      CollectAttacksResolvesRound(s, targets[1..], attack, removal);
    } else {
      assert c.party[c.focus + 1..] == [] && targets[1..] == [];
      assert c'.events == c.events + PartyAttacks(c.party[c.focus..], targets);
    }
  }

  /** A full input phase — every member, first to last, attacks — always
      resolves the round and comes back to the first member with an empty
      queue, having resolved exactly the declared attacks and one attack per
      enemy. */
  lemma FullRoundReturnsToFirstMember(c: CombatState, targets: seq<Sprite>, attack: AttackFormula, removal: Removal)
    requires ReadyForInput(c, targets)
    requires c.focus == 0 && c.events == [] && |targets| == |c.party|
    ensures var r := CollectAttacks(c, targets, attack, removal);
            && r.RoundOver?
            && r.state.focus == 0 && r.state.events == []
            && multiset(r.resolved) == multiset(PartyAttacks(c.party, targets) + EnemyAttacks(c.enemies, c.party[0]))
            && |r.resolved| == |c.party| + |c.enemies|
  {
    CollectAttacksResolvesRound(c, targets, attack, removal);
    assert c.party[0..] == c.party;
    var r := CollectAttacks(c, targets, attack, removal);
    assert |r.resolved| == |multiset(r.resolved)|;
  }

  // ---------------------------------------------------------------------------
  // Discrepancies between the code and its evident intent
  // ---------------------------------------------------------------------------

  /** The inverted guard: with the second member focused and the first
      member's attack queued, retreating does nothing; at the first member it
      drops the focus to -1 and pops the queue. The intended retreat does the
      opposite in both cases. */
  lemma FocusPreviousGuardInverted(p0: Sprite, p1: Sprite, foe: Sprite)
    ensures var e := CombatEvent(p0, foe, Attack, OrientLeft);
            var second := CombatState([e], [p0, p1], [foe], 1, map[]);
            var first := CombatState([], [p0, p1], [foe], 0, map[]);
            && FocusPreviousPartyInput(second) == (second, false)
            && FocusPreviousIntended(second) == (second.(focus := 0, events := []), true)
            && FocusPreviousPartyInput(first).0.focus == -1
            && FocusPreviousIntended(first) == (first, false)
  {
  }

  /** With the intended guard, retreating right after a member confirmed an
      attack undoes that confirmation exactly. */
  lemma RetreatUndoesConfirm(c: CombatState, t: Sprite, attack: AttackFormula, removal: Removal)
    requires ReadyForInput(c, [t])
    requires c.focus < |c.party| - 1
    ensures Choose(c, AttackTarget(t), attack, removal).AwaitingInput?
    ensures FocusPreviousIntended(Choose(c, AttackTarget(t), attack, removal).state) == (c, true)
  {
    var e := CombatEvent(c.party[c.focus], t, Attack, OrientLeft);
    assert (c.events + [e])[..|c.events|] == c.events;
  }

  /** When the downed target is not an enemy (a party member, say), the code's
      `findIndex` yields -1 and the splice removes the LAST enemy instead. */
  lemma RemovalAsWrittenDropsBystander(a: Sprite, b: Sprite, member: Sprite)
    requires member != a && member != b
    ensures RemoveDownedAsWritten([a, b], member) == [a]
    ensures RemoveDownedIntended([a, b], member) == [a, b]
  {
    assert member !in [a, b];
  }

  // ---------------------------------------------------------------------------
  // Ordering of a round
  // ---------------------------------------------------------------------------

  /** When no event after the first has an executor slower than its target,
      sorting keeps the declaration order, so the last declared event — the
      last enemy's attack, when there are enemies — resolves first. */
  lemma NoSlowerExecutorKeepsDeclarationOrder(c: CombatState, attack: AttackFormula, removal: Removal)
    requires Valid(c)
    requires forall i :: 1 <= i < |c.events| ==> SpeedKey(c.events[i]) >= 0
    ensures SortEventsBySpeed(c).events == c.events
    ensures Drain(SortEventsBySpeed(c), attack, removal).resolved == Reverse(c.events)
  {
    SpeedComparatorReadsFirstArgumentOnly();
    ArraySort.SortKeepsOrderWithoutNegativeKeys(c.events, SpeedComparator, SpeedKey);
  }

  /** Two events with comparator values 9 and -7: the sort puts the -7 event
      first, so popping from the end resolves the 9 event first. */
  lemma TwoEventOrdering(fast: CombatEvent, slow: CombatEvent)
    requires SpeedKey(fast) == 9 && SpeedKey(slow) == -7
    ensures ArraySort.Sort([fast, slow], SpeedComparator) == [slow, fast]
    ensures ArraySort.Sort([slow, fast], SpeedComparator) == [slow, fast]
  {
    SpeedComparatorReadsFirstArgumentOnly();
    ArraySort.SortReversesWithOnlyNegativeKeys([fast, slow], SpeedComparator, SpeedKey);
    ArraySort.SortKeepsOrderWithoutNegativeKeys([slow, fast], SpeedComparator, SpeedKey);
  }

  /** Three events whose comparator values are 5, -3 and 2 come out as -3, 5,
      2: the queue is not ordered by the comparator value. */
  lemma SortIsNotByComparatorValue(a: CombatEvent, b: CombatEvent, d: CombatEvent)
    requires SpeedKey(a) == 5 && SpeedKey(b) == -3 && SpeedKey(d) == 2
    ensures ArraySort.Sort([a, b, d], SpeedComparator) == [b, a, d]
  {
    var q := [a, b, d];
    SpeedComparatorReadsFirstArgumentOnly();
    assert ArraySort.RunIsDescending(q, SpeedComparator);
    assert ArraySort.RunLength(q, SpeedComparator) == 2;
    assert ArraySort.MakeRun(q, SpeedComparator) == [b, a, d] by {
      assert q[..2] == [a, b];
    }
    ArraySort.SortShapeFirstArgumentOnly(q, SpeedComparator, SpeedKey);
    assert [b, a, d][2..] == [d];
    assert ArraySort.Negatives([d], SpeedKey) == [];
    assert ArraySort.NonNegatives([d], SpeedKey) == [d];
  }

  /** A damage formula that takes 10 HP, stopping at 0. */
  function TenDamage(executor: Sprite, executorVitals: Vitals, target: Sprite, targetVitals: Vitals): AttackOutcome {
    AttackOutcome(-10, targetVitals.(currentHp := if targetVitals.currentHp < 10 then 0 else targetVitals.currentHp - 10))
  }

  /** The pieces of the duel below. */
  function DuelHero(): Sprite { Sprite(0, "hero", 5) }
  function DuelFoe(): Sprite { Sprite(1, "foe", 2) }
  function DuelStrike(): CombatEvent { CombatEvent(DuelHero(), DuelFoe(), Attack, OrientLeft) }
  function DuelCounter(): CombatEvent { CombatEvent(DuelFoe(), DuelHero(), Attack, OrientRight) }
  function DuelWorld(heroHp: int, foeHp: int): World { map[0 := Vitals(heroHp, 20), 1 := Vitals(foeHp, 20)] }

  /** The HP a 10-damage hit leaves. */
  function AfterTen(hp: int): int {
    if hp < 10 then 0 else hp - 10
  }

  /** The roster once the foe has taken a hit that left it at `foeHp`. */
  function DuelRoster(foeHp: int): seq<Sprite> {
    if foeHp == 0 then [] else [DuelFoe()]
  }

  lemma DuelStrikeStep(heroHp: int, foeHp: int, removal: Removal)
    ensures StartLoop(CombatState([DuelCounter(), DuelStrike()], [DuelHero()], [DuelFoe()], 0, DuelWorld(heroHp, foeHp)),
                      TenDamage, removal)
            == Resolved(CombatState([DuelCounter()], [DuelHero()], DuelRoster(AfterTen(foeHp)), 0,
                                    DuelWorld(heroHp, AfterTen(foeHp))),
                        DuelStrike(), foeHp <= 10, foeHp <= 10)
  {
    assert FindIndex([DuelFoe()], DuelFoe()) == 0;
    assert DuelWorld(heroHp, foeHp)[1 := Vitals(AfterTen(foeHp), 20)] == DuelWorld(heroHp, AfterTen(foeHp));
  }

  /** The foe's counter downs the hero iff the hero has 10 HP or less; the
      code's splice then takes the foe, who is still standing, off the roster. */
  lemma DuelCounterStep(heroHp: int, foeHp: int, removal: Removal)
    ensures var roster := DuelRoster(foeHp);
            var after := if heroHp <= 10 && removal == SpliceAsWritten then [] else roster;
            StartLoop(CombatState([DuelCounter()], [DuelHero()], roster, 0, DuelWorld(heroHp, foeHp)), TenDamage, removal)
            == Resolved(CombatState([], [DuelHero()], after, 0, DuelWorld(AfterTen(heroHp), foeHp)), DuelCounter(),
                        heroHp <= 10, heroHp <= 10 && after == [])
  {
    assert DuelHero() !in DuelRoster(foeHp);
    assert DuelWorld(heroHp, foeHp)[0 := Vitals(AfterTen(heroHp), 20)] == DuelWorld(AfterTen(heroHp), foeHp);
  }

  /** The roster a duel round leaves. */
  function DuelRosterAtEnd(heroHp: int, foeHp: int, removal: Removal): seq<Sprite> {
    if foeHp <= 10 || (heroHp <= 10 && removal == SpliceAsWritten) then [] else [DuelFoe()]
  }

  /** The number of 'end-battle' emissions of a duel round. */
  function DuelEndings(heroHp: int, foeHp: int, removal: Removal): nat {
    (if foeHp <= 10 then 1 else 0) + (if heroHp <= 10 && (foeHp <= 10 || removal == SpliceAsWritten) then 1 else 0)
  }

  /** The counter's half of a duel round: the queue holds only the counter. */
  lemma DuelCounterDrain(heroHp: int, foeHp: int, removal: Removal)
    ensures Drain(CombatState([DuelCounter()], [DuelHero()], DuelRoster(AfterTen(foeHp)), 0,
                              DuelWorld(heroHp, AfterTen(foeHp))), TenDamage, removal)
            == Drained(CombatState([], [DuelHero()], DuelRosterAtEnd(heroHp, foeHp, removal), 0,
                                   DuelWorld(AfterTen(heroHp), AfterTen(foeHp))),
                       [DuelCounter()],
                       if heroHp <= 10 && (foeHp <= 10 || removal == SpliceAsWritten) then 1 else 0)
  {
    var last := CombatState([], [DuelHero()], DuelRosterAtEnd(heroHp, foeHp, removal), 0,
                            DuelWorld(AfterTen(heroHp), AfterTen(foeHp)));
    assert Drain(last, TenDamage, removal) == Drained(last, [], 0) by {
      assert StartLoop(last, TenDamage, removal) == Idle(last);
    }
    DuelCounterStep(heroHp, AfterTen(foeHp), removal);
  }

  lemma DuelDrain(heroHp: int, foeHp: int, removal: Removal)
    ensures Drain(CombatState([DuelCounter(), DuelStrike()], [DuelHero()], [DuelFoe()], 0, DuelWorld(heroHp, foeHp)),
                  TenDamage, removal)
            == Drained(CombatState([], [DuelHero()], DuelRosterAtEnd(heroHp, foeHp, removal), 0,
                                   DuelWorld(AfterTen(heroHp), AfterTen(foeHp))),
                       [DuelStrike(), DuelCounter()],
                       DuelEndings(heroHp, foeHp, removal))
  {
    var c0 := CombatState([DuelCounter(), DuelStrike()], [DuelHero()], [DuelFoe()], 0, DuelWorld(heroHp, foeHp));
    var c1 := CombatState([DuelCounter()], [DuelHero()], DuelRoster(AfterTen(foeHp)), 0, DuelWorld(heroHp, AfterTen(foeHp)));
    DuelCounterDrain(heroHp, foeHp, removal);
    DuelStrikeStep(heroHp, foeHp, removal);
    assert StartLoop(c0, TenDamage, removal) == Resolved(c1, DuelStrike(), foeHp <= 10, foeHp <= 10);
    assert [DuelStrike()] + [DuelCounter()] == [DuelStrike(), DuelCounter()];
  }

  /** One member (dexterity 5) against one enemy (dexterity 2), each hit
      taking 10 HP. The member's attack resolves first; the enemy's queued
      counter resolves afterwards even when the enemy fell. A fallen enemy
      empties the roster and emits 'end-battle'. Under the code's splice a
      fallen hero also empties the roster and emits 'end-battle', so a round
      in which both fall emits it twice. */
  lemma DuelRound(heroHp: int, foeHp: int, removal: Removal)
    ensures var c := CombatState([], [DuelHero()], [DuelFoe()], 0, DuelWorld(heroHp, foeHp));
            var r := Choose(c, AttackTarget(DuelFoe()), TenDamage, removal);
            && r.RoundOver?
            && r.resolved == [DuelStrike(), DuelCounter()]
            && r.state.world == DuelWorld(AfterTen(heroHp), AfterTen(foeHp))
            && (removal == SpliceAsWritten ==>
                  && r.state.enemies == (if foeHp <= 10 || heroHp <= 10 then [] else [DuelFoe()])
                  && r.endings == (if foeHp <= 10 then 1 else 0) + (if heroHp <= 10 then 1 else 0))
            && (removal == TargetOnly ==>
                  && r.state.enemies == (if foeHp <= 10 then [] else [DuelFoe()])
                  && r.endings == (if foeHp <= 10 then 1 else 0) + (if foeHp <= 10 && heroHp <= 10 then 1 else 0))
  {
    var c := CombatState([], [DuelHero()], [DuelFoe()], 0, DuelWorld(heroHp, foeHp));
    var c1 := AddEvent(c, DuelStrike());
    assert ApplyEnemyTurns(c1).events == [DuelStrike(), DuelCounter()];
    TwoEventOrderingGeneral(DuelStrike(), DuelCounter());
    assert SortEventsBySpeed(ApplyEnemyTurns(c1))
        == CombatState([DuelCounter(), DuelStrike()], [DuelHero()], [DuelFoe()], 0, DuelWorld(heroHp, foeHp));
    DuelDrain(heroHp, foeHp, removal);
  }

  /** A hero's fall ends the battle as the code is written: the enemy that
      downed the hero is still standing (with `foeHp - 10` HP), yet the splice
      empties the roster and 'end-battle' is emitted. The intended removal keeps the enemy and
      emits nothing. */
  lemma HeroFallEmptiesRosterAsWritten(heroHp: int, foeHp: int)
    requires heroHp <= 10 && foeHp > 10
    ensures var c := CombatState([], [DuelHero()], [DuelFoe()], 0, DuelWorld(heroHp, foeHp));
            var written := Choose(c, AttackTarget(DuelFoe()), TenDamage, SpliceAsWritten);
            var intended := Choose(c, AttackTarget(DuelFoe()), TenDamage, TargetOnly);
            && written.RoundOver? && written.state.enemies == [] && written.endings == 1
            && written.state.world == DuelWorld(0, foeHp - 10)
            && intended.RoundOver? && intended.state.enemies == [DuelFoe()] && intended.endings == 0
  {
    DuelRound(heroHp, foeHp, SpliceAsWritten);
    DuelRound(heroHp, foeHp, TargetOnly);
  }

  /** Whatever the first event's comparator value, a second event whose value
      is negative is moved in front of it. */
  lemma TwoEventOrderingGeneral(first: CombatEvent, second: CombatEvent)
    requires SpeedKey(second) < 0
    ensures ArraySort.Sort([first, second], SpeedComparator) == [second, first]
  {
    SpeedComparatorReadsFirstArgumentOnly();
    ArraySort.SortReversesWithOnlyNegativeKeys([first, second], SpeedComparator, SpeedKey);
  }
}

=== FILE: common.dfy ===
/** Small vocabulary shared by the game modules: an optional value, the four
    facing directions, and sequence reversal. */
module Common {

  /** A value that may be absent (JavaScript's `undefined`). */
  datatype Option<+T> = None | Some(value: T) {
    function GetOr(default: T): T {
      match this
      case Some(v) => v
      case None => default
    }
  }

  /** The facing directions of a sprite on the tile map. */
  datatype Direction = Up | Down | Left | Right

  /** A 2D position in pixels. */
  datatype Point = Point(x: int, y: int)

  /** The elements of `s` in the opposite order. */
  function Reverse<T>(s: seq<T>): (r: seq<T>)
    ensures |r| == |s|
    ensures forall i :: 0 <= i < |s| ==> r[i] == s[|s| - 1 - i]
  {
    if |s| == 0 then [] else Reverse(s[1..]) + [s[0]]
  }

  lemma ReverseAppend<T>(s: seq<T>, x: T)
    ensures Reverse(s + [x]) == [x] + Reverse(s)
  {
    var l, r := Reverse(s + [x]), [x] + Reverse(s);
    assert |l| == |r|;
    forall i | 0 <= i < |l| ensures l[i] == r[i] {
      if i > 0 {
        assert l[i] == (s + [x])[|s| - i];
      }
    }
  }

  lemma ReverseMultiset<T>(s: seq<T>)
    ensures multiset(Reverse(s)) == multiset(s)
  {
    if |s| > 0 {
      ReverseMultiset(s[1..]);
      assert s == [s[0]] + s[1..];
    }
  }

  /** A non-empty sequence is its prefix followed by its last element. */
  lemma SplitLast<T>(s: seq<T>)
    requires |s| > 0
    ensures s == s[..|s| - 1] + [s[|s| - 1]]
  {
  }

  /** Every element of a sub-multiset's sequence is in the larger sequence. */
  lemma SubMultisetMembers<T>(a: seq<T>, b: seq<T>)
    requires multiset(a) <= multiset(b)
    ensures forall x :: x in a ==> x in b
  {
    forall x | x in a
      ensures x in b
    {
      assert x in multiset(a);
    }
  }
}

=== FILE: item_controller.dfy ===
/** Assembling items and shop inventories from the data repositories. The
    repositories are modelled as maps from ids to records. */
module ItemController {
  import opened Common
  import opened Items

  datatype EquipmentSlot = Weapon | Chest | Accessory

  datatype EquipmentType = Sword | Dagger | Claws | AccessoryType | Armor

  /** A record as the item and equipment repositories store it. `spellId` 0
      stands for a missing (falsy) spell id; category, slot and type are the
      enum member names as written in the data. */
  datatype ItemRecord = ItemRecord(
    id: ItemId,
    name: string,
    description: string,
    spellId: int,
    effectPotency: int,
    category: string,
    value: int,
    slot: string,
    equipmentType: string)

  /** A shop record; its own `id` field may be missing. */
  datatype ShopRecord = ShopRecord(
    id: Option<int>,
    name: string,
    description: string,
    inventory: seq<ItemId>)

  datatype Repositories = Repositories(
    items: map<ItemId, ItemRecord>,
    equipment: map<ItemId, ItemRecord>,
    spells: map<int, Spell>,
    shops: map<int, ShopRecord>)

  /** The equipment-only part of a built item. */
  datatype Gear = Gear(slot: Option<EquipmentSlot>, equipmentType: Option<EquipmentType>)

  /** A built item; `gear` is present exactly when it was built as Equipment.
      `value` is `None` when the constructor was not handed one: the
      Equipment constructor forwards only its first twelve arguments to the
      item's, so the record's value never reaches an equipment item. */
  datatype BuiltItem = BuiltItem(
    id: ItemId,
    name: string,
    description: string,
    effect: Option<Spell>,
    effectPotency: int,
    category: Option<ItemCategory>,
    quantity: int,
    value: Option<int>,
    gear: Option<Gear>)

  datatype ShopInventory = ShopInventory(
    id: int,
    name: string,
    description: string,
    inventory: seq<BuiltItem>)

  /** `ItemCategory[name]`: the enum member with that name, if any. */
  function ParseCategory(name: string): (c: Option<ItemCategory>)
    ensures c == Some(EquipmentCategory) <==> name == "equipment"
  {
    if name == "consumable" then Some(Consumable)
    else if name == "keyItem" then Some(KeyItem)
    else if name == "equipment" then Some(EquipmentCategory)
    else None
  }

  function ParseSlot(name: string): Option<EquipmentSlot> {
    if name == "weapon" then Some(Weapon)
    else if name == "chest" then Some(Chest)
    else if name == "accessory" then Some(Accessory)
    else None
  }

  function ParseEquipmentType(name: string): Option<EquipmentType> {
    if name == "sword" then Some(Sword)
    else if name == "dagger" then Some(Dagger)
    else if name == "claws" then Some(Claws)
    else if name == "accessory" then Some(AccessoryType)
    else if name == "armor" then Some(Armor)
    else None
  }

  /** An id one of the two item repositories holds. */
  predicate Known(repos: Repositories, id: ItemId) {
    id in repos.items || id in repos.equipment
  }

  /** The record `getItem` reads: the item repository's when it has the id,
      the equipment repository's only otherwise. */
  function RecordFor(repos: Repositories, id: ItemId): (rec: ItemRecord)
    requires Known(repos, id)
    ensures id in repos.items ==> rec == repos.items[id]
    ensures id !in repos.items ==> rec == repos.equipment[id]
  {
    if id in repos.items then repos.items[id] else repos.equipment[id]
  }

  /** `item.spellId && getSpellById(item.spellId)`: no lookup for a falsy id. */
  function SpellEffect(repos: Repositories, spellId: int): (e: Option<Spell>)
    ensures spellId == 0 ==> e == None
    ensures e.Some? <==> spellId != 0 && spellId in repos.spells
    ensures e.Some? ==> e.value == repos.spells[spellId]
  {
    if spellId == 0 then None
    else if spellId in repos.spells then Some(repos.spells[spellId])
    else None
  }

  /** `getItem`: builds an Equipment for the equipment category and a plain
      item otherwise, both with quantity 1. Only the plain item receives the
      record's value; the Equipment constructor drops the argument. */
  function GetItem(repos: Repositories, id: ItemId): (r: BuiltItem)
    requires Known(repos, id)
    ensures var rec := RecordFor(repos, id);
            && r.id == rec.id && r.name == rec.name
            && (r.gear.Some? ==> r.value == None)
            && (r.gear.None? ==> r.value == Some(rec.value))
            && r.description == rec.description && r.effectPotency == rec.effectPotency
            && r.effect == SpellEffect(repos, rec.spellId)
            && r.category == ParseCategory(rec.category)
            && (r.gear.Some? <==> rec.category == "equipment")
    ensures r.quantity == 1
  {
    var rec := RecordFor(repos, id);
    var effect := SpellEffect(repos, rec.spellId);
    var category := ParseCategory(rec.category);
    if category == Some(EquipmentCategory) then
      BuiltItem(rec.id, rec.name, rec.description, effect, rec.effectPotency, category, 1, None,
                Some(Gear(ParseSlot(rec.slot), ParseEquipmentType(rec.equipmentType))))
    else
      BuiltItem(rec.id, rec.name, rec.description, effect, rec.effectPotency, category, 1, Some(rec.value), None)
  }

  /** Builds the items of `ids`, in order. */
  function GetItems(repos: Repositories, ids: seq<ItemId>): (r: seq<BuiltItem>)
    requires forall id :: id in ids ==> Known(repos, id)
    ensures |r| == |ids|
    ensures forall i :: 0 <= i < |ids| ==> r[i] == GetItem(repos, ids[i])
  {
    if |ids| == 0 then [] else [GetItem(repos, ids[0])] + GetItems(repos, ids[1..])
  }

  /** A shop the repositories can serve: it exists and every listed id is known. */
  predicate Stocked(repos: Repositories, shopId: int) {
    shopId in repos.shops && forall id :: id in repos.shops[shopId].inventory ==> Known(repos, id)
  }

  /** `getShopInventory`: the shop record with its id list replaced by the
      built items. `{ id, ...shop }` lets the record's own id win over the
      argument. */
  function GetShopInventory(repos: Repositories, shopId: int): (r: ShopInventory)
    requires Stocked(repos, shopId)
    ensures var shop := repos.shops[shopId];
            && r.id == (if shop.id.Some? then shop.id.value else shopId)
            && r.name == shop.name
            && |r.inventory| == |shop.inventory|
            && (forall i :: 0 <= i < |r.inventory| ==> r.inventory[i] == GetItem(repos, shop.inventory[i]))
  {
    var shop := repos.shops[shopId];
    ShopInventory(shop.id.GetOr(shopId), shop.name, shop.description, GetItems(repos, shop.inventory))
  }

  /** Every repository record is filed under its own id. */
  ghost predicate SelfKeyed(repos: Repositories) {
    && (forall id :: id in repos.items ==> repos.items[id].id == id)
    && (forall id :: id in repos.equipment ==> repos.equipment[id].id == id)
  }

  /** With self-keyed repositories a shop's inventory lists exactly the shop's
      ids, in the shop's order, each item a fresh stack of one. */
  lemma ShopInventoryFollowsShopList(repos: Repositories, shopId: int)
    requires Stocked(repos, shopId) && SelfKeyed(repos)
    ensures var shop, inv := repos.shops[shopId], GetShopInventory(repos, shopId).inventory;
            && |inv| == |shop.inventory|
            && (forall i :: 0 <= i < |inv| ==> inv[i].id == shop.inventory[i] && inv[i].quantity == 1)
  {
    var shop, inv := repos.shops[shopId], GetShopInventory(repos, shopId).inventory;
    forall i | 0 <= i < |inv| ensures inv[i].id == shop.inventory[i] {
      var id := shop.inventory[i];
      assert id in shop.inventory;
      assert inv[i].id == RecordFor(repos, id).id;
    }
  }

  /** An id held by both repositories is read from the item repository. */
  lemma ItemRepositoryWins(repos: Repositories, id: ItemId)
    requires id in repos.items && id in repos.equipment
    ensures GetItem(repos, id).name == repos.items[id].name
    ensures GetItem(repos, id).value
            == if repos.items[id].category == "equipment" then None else Some(repos.items[id].value)
  {
  }
}

=== FILE: items.dfy ===
/** Inventory items: a quantity counter capped at 99 and floored at 0, a
    pending-use reservation counted against it, and the classifier that says
    which resource an item restores on a combatant. */
module Items {
  import opened Common

  /** The most of one item a player can hold. */
  const Limit: int := 99

  /** An item or shop id: a number or a string. */
  datatype ItemId = NumId(n: int) | StrId(s: string)

  datatype ItemCategory = Consumable | KeyItem | EquipmentCategory

  datatype SpellType = ManaRecover | Restoration | Revive | OtherSpell(name: string)

  datatype Spell = Spell(id: int, spellType: SpellType)

  datatype Item = Item(
    id: ItemId,
    name: string,
    description: string,
    effect: Option<Spell>,
    effectPotency: int,
    category: ItemCategory,
    quantity: int,
    pendingUse: int)

  /** A new item holding the constructor's arguments; an omitted quantity
      (`None`) defaults to 1, and nothing is reserved. */
  function NewItem(id: ItemId, name: string, description: string, effect: Option<Spell>,
                   effectPotency: int, category: ItemCategory, quantity: Option<int>): (it: Item)
    ensures quantity.None? ==> it.quantity == 1
    ensures quantity.Some? ==> it.quantity == quantity.value
    ensures it.pendingUse == 0
    ensures it.id == id && it.name == name && it.description == description
    ensures it.effect == effect && it.effectPotency == effectPotency && it.category == category
  {
    Item(id, name, description, effect, effectPotency, category, quantity.GetOr(1), 0)
  }

  /** A quantity the counter operations keep. */
  predicate InRange(it: Item) {
    0 <= it.quantity <= Limit
  }

  function IncrementQuantity(it: Item): (r: Item)
    ensures it.quantity < Limit ==> r.quantity == it.quantity + 1
    ensures it.quantity >= Limit ==> r.quantity == it.quantity
    ensures InRange(it) ==> InRange(r)
    ensures r == it.(quantity := r.quantity)
  {
    if it.quantity >= Limit then it else it.(quantity := it.quantity + 1)
  }

  function DecrementQuantity(it: Item): (r: Item)
    ensures it.quantity > 0 ==> r.quantity == it.quantity - 1
    ensures it.quantity <= 0 ==> r.quantity == it.quantity
    ensures InRange(it) ==> InRange(r)
    ensures r == it.(quantity := r.quantity)
  {
    if it.quantity <= 0 then it else it.(quantity := it.quantity - 1)
  }

  function SetQuantity(it: Item, amount: int): (r: Item)
    ensures r.quantity == amount
    ensures r == it.(quantity := r.quantity)
  {
    it.(quantity := amount)
  }

  /** How many are left once the reservations are counted. */
  function GetQuantity(it: Item): (available: int)
    ensures available > 0 <==> it.pendingUse < it.quantity
    ensures it.pendingUse == 0 ==> available == it.quantity
  {
    it.quantity - it.pendingUse
  }

  function CanSetIntendToUse(it: Item): (b: bool)
    ensures b <==> it.pendingUse < it.quantity
  {
    GetQuantity(it) > 0
  }

  /** Reserves `amount` (1 by default at the call sites) for use. */
  function SetIntendToUse(it: Item, amount: int): (r: Item)
    ensures r.quantity == it.quantity
    ensures GetQuantity(r) == GetQuantity(it) - amount
    ensures r == it.(pendingUse := r.pendingUse)
  {
    it.(pendingUse := it.pendingUse + amount)
  }

  function ResetIntendToUse(it: Item): (r: Item)
    ensures r.quantity == it.quantity
    ensures GetQuantity(r) == it.quantity
    ensures r == it.(pendingUse := r.pendingUse)
  {
    it.(pendingUse := 0)
  }

  /** Below the cap, a decrement undoes an increment. */
  lemma DecrementUndoesIncrement(it: Item)
    requires 0 <= it.quantity < Limit
    ensures DecrementQuantity(IncrementQuantity(it)) == it
  {
  }

  /** Above the floor, an increment undoes a decrement. */
  lemma IncrementUndoesDecrement(it: Item)
    requires 0 < it.quantity <= Limit
    ensures IncrementQuantity(DecrementQuantity(it)) == it
  {
  }

  function IncrementTimes(it: Item, n: nat): Item {
    if n == 0 then it else IncrementQuantity(IncrementTimes(it, n - 1))
  }

  function DecrementTimes(it: Item, n: nat): Item {
    if n == 0 then it else DecrementQuantity(DecrementTimes(it, n - 1))
  }

  /** Collecting `n` more of an item saturates at the cap. */
  lemma {:induction false} IncrementsSaturate(it: Item, n: nat)
    requires it.quantity <= Limit
    ensures IncrementTimes(it, n).quantity == if it.quantity + n > Limit then Limit else it.quantity + n
    ensures IncrementTimes(it, n) == it.(quantity := IncrementTimes(it, n).quantity)
  {
    if n > 0 {
      IncrementsSaturate(it, n - 1);
    }
  }

  /** Using `n` of an item stops at zero. */
  lemma {:induction false} DecrementsStopAtZero(it: Item, n: nat)
    requires it.quantity >= 0
    ensures DecrementTimes(it, n).quantity == if it.quantity - n < 0 then 0 else it.quantity - n
    ensures DecrementTimes(it, n) == it.(quantity := DecrementTimes(it, n).quantity)
  {
    if n > 0 {
      DecrementsStopAtZero(it, n - 1);
    }
  }

  /** Setting the quantity forgets every earlier increment, and setting it to
      what it is changes nothing. */
  lemma SetQuantityOverridesIncrements(it: Item, n: nat, amount: int)
    requires it.quantity <= Limit
    ensures SetQuantity(IncrementTimes(it, n), amount) == SetQuantity(it, amount)
    ensures SetQuantity(it, it.quantity) == it
  {
    IncrementsSaturate(it, n);
  }

  /** A new item created without a quantity can be reserved once and no more,
      and collecting more of it saturates at the cap. */
  lemma NewItemLifecycle(id: ItemId, name: string, description: string, effect: Option<Spell>,
                         effectPotency: int, category: ItemCategory, n: nat)
    ensures var it := NewItem(id, name, description, effect, effectPotency, category, None);
            && CanSetIntendToUse(it)
            && !CanSetIntendToUse(SetIntendToUse(it, 1))
            && IncrementTimes(it, n).quantity == if n >= Limit then Limit else 1 + n
  {
    IncrementsSaturate(NewItem(id, name, description, effect, effectPotency, category, None), n);
  }

  /** Reserving one at a time, reservations stay possible exactly while fewer
      than the available count have been made; a reset gives all back. */
  function ReserveTimes(it: Item, n: nat): Item {
    if n == 0 then it else SetIntendToUse(ReserveTimes(it, n - 1), 1)
  }

  lemma {:induction false} ReservationsExhaust(it: Item, n: nat)
    ensures GetQuantity(ReserveTimes(it, n)) == GetQuantity(it) - n
    ensures CanSetIntendToUse(ReserveTimes(it, n)) <==> n < GetQuantity(it)
    ensures ResetIntendToUse(ReserveTimes(it, n)) == ResetIntendToUse(it)
  {
    if n > 0 {
      ReservationsExhaust(it, n - 1);
    }
  }

  // ---------------------------------------------------------------------------
  // Item use
  // ---------------------------------------------------------------------------

  /** The resources `handleItemUse` reads from the recipient. */
  datatype Recipient = Recipient(currentHp: int, maxHp: int, currentMp: int, maxMp: int)

  /** The recipient method an item use would invoke. */
  datatype RecoverFunction = RecoverManaFor | HealFor | ReviveRecipient

  /** The item-use record; absent fields are `undefined`. */
  datatype ItemUse = ItemUse(
    item: Item,
    resource: Option<string>,
    resourceFull: Option<bool>,
    recover: Option<RecoverFunction>)

  /** Which resource an item's effect restores on `target`, and whether it is full. */
  function HandleItemUse(target: Recipient, item: Item): (u: ItemUse)
    requires item.effect.Some?
    ensures u.item == item
    ensures item.effect.value.spellType == ManaRecover ==>
              u.resource == Some("MP") && u.recover == Some(RecoverManaFor)
              && (u.resourceFull == Some(true) <==> target.currentMp >= target.maxMp)
    ensures item.effect.value.spellType == Restoration ==>
              u.resource == Some("HP") && u.recover == Some(HealFor)
              && (u.resourceFull == Some(true) <==> target.currentHp >= target.maxHp)
    ensures item.effect.value.spellType == Revive ==>
              u.resource == Some("") && u.recover == Some(ReviveRecipient)
              && (u.resourceFull == Some(true) <==> target.currentHp >= target.maxHp)
    ensures item.effect.value.spellType.OtherSpell? <==> u.resourceFull == None
    ensures item.effect.value.spellType.OtherSpell? ==> u.resource == None && u.recover == None
  {
    match item.effect.value.spellType
    case ManaRecover => ItemUse(item, Some("MP"), Some(target.currentMp >= target.maxMp), Some(RecoverManaFor))
    case Restoration => ItemUse(item, Some("HP"), Some(target.currentHp >= target.maxHp), Some(HealFor))
    case Revive => ItemUse(item, Some(""), Some(target.currentHp >= target.maxHp), Some(ReviveRecipient))
    case OtherSpell(_) => ItemUse(item, None, None, None)
  }

  /** An item use reads only the resource the item restores: a mana item's
      result does not depend on the recipient's HP, a restoration or revive
      item's does not depend on its MP, and any other item's does not depend
      on the recipient at all. */
  lemma ItemUseReadsOnlyItsResource(a: Recipient, b: Recipient, item: Item)
    requires item.effect.Some?
    ensures item.effect.value.spellType == ManaRecover && a.currentMp == b.currentMp && a.maxMp == b.maxMp
            ==> HandleItemUse(a, item) == HandleItemUse(b, item)
    ensures (item.effect.value.spellType == Restoration || item.effect.value.spellType == Revive)
            && a.currentHp == b.currentHp && a.maxHp == b.maxHp
            ==> HandleItemUse(a, item) == HandleItemUse(b, item)
    ensures item.effect.value.spellType.OtherSpell? ==> HandleItemUse(a, item) == HandleItemUse(b, item)
  {
  }
}

=== FILE: movement.dfy ===
/** Grid movement of a sprite on a tiled map: the tile in front, whether a
    tile can be entered, the velocity a move sets, the per-frame step toward
    the target, and the facing-to-animation-frame map. The map's tiles are a
    map from layer and tile coordinates to each tile's `collide` flag; a
    coordinate outside the map has no tile. */
module Movement {
  import opened Common

  /** Width and height of a tile, in pixels. */
  const TileSize: int := 64

  /** Pixels moved per frame. */
  const MovementSpeed: int := 8

  datatype Layer = Background | Foreground

  /** A tile by layer and tile coordinates. */
  datatype TileRef = TileRef(layer: Layer, col: int, row: int)

  /** The tiles present, each with its `collide` flag. */
  type TileMap = map<TileRef, bool>

  /** What a movement step emits or triggers outside the sprite. */
  datatype Emission = FinishedMovement | HitWall | QueryUnderfoot | CallbackRun | AnimationStopped

  datatype Moveable = Moveable(
    x: int,
    y: int,
    isMoving: bool,
    velocityX: int,
    velocityY: int,
    target: Point,
    facing: Direction,
    frame: int,
    currentTile: Option<TileRef>)

  /** A sprite, the map and what was emitted, after one operation. */
  datatype Step = Step(m: Moveable, tiles: TileMap, emitted: seq<Emission>)

  /** A sprite and what it emitted, after one frame; a frame leaves the map
      alone. */
  datatype Frame = Frame(m: Moveable, emitted: seq<Emission>)

  /** The animation frame shown when facing `d`. */
  function FrameFor(d: Direction): int {
    match d
    case Up => 3
    case Left => 7
    case Right => 7
    case Down => 0
  }

  function Face(m: Moveable, d: Direction): (r: Moveable)
    ensures r.facing == d
    ensures d == Up ==> r.frame == 3
    ensures d == Left || d == Right ==> r.frame == 7
    ensures d == Down ==> r.frame == 0
    ensures r == m.(facing := d, frame := r.frame)
  {
    m.(facing := d, frame := FrameFor(d))
  }

  /** The pixel position one tile ahead in the facing direction. */
  function TileInFront(m: Moveable): (p: Point)
    ensures m.facing == Right ==> p == Point(m.x + TileSize, m.y)
    ensures m.facing == Left ==> p == Point(m.x - TileSize, m.y)
    ensures m.facing == Down ==> p == Point(m.x, m.y + TileSize)
    ensures m.facing == Up ==> p == Point(m.x, m.y - TileSize)
  {
    match m.facing
    case Right => Point(m.x + 64, m.y)
    case Left => Point(m.x - 64, m.y)
    case Down => Point(m.x, m.y + 64)
    case _ => Point(m.x, m.y - 64)
  }

  function Opposite(d: Direction): Direction {
    match d
    case Up => Down
    case Down => Up
    case Left => Right
    case Right => Left
  }

  /** Turning round on the tile in front and looking ahead again gives back
      the starting position. */
  lemma TileInFrontReturns(m: Moveable, d: Direction)
    ensures var p := TileInFront(m.(facing := d));
            TileInFront(m.(x := p.x, y := p.y, facing := Opposite(d))) == Point(m.x, m.y)
  {
  }

  /** `tileIsOpen`: both layers have a tile there and neither collides. A
      missing tile is falsy in the code, so it closes the position. */
  function TileIsOpen(tiles: TileMap, col: int, row: int): (open: bool)
    ensures open <==> forall l: Layer :: TileRef(l, col, row) in tiles && !tiles[TileRef(l, col, row)]
  {
    if && TileRef(Background, col, row) in tiles && !tiles[TileRef(Background, col, row)]
       && TileRef(Foreground, col, row) in tiles && !tiles[TileRef(Foreground, col, row)]
    then
      BothLayersAreAll(tiles, col, row);
      true
    else false
  }

  lemma BothLayersAreAll(tiles: TileMap, col: int, row: int)
    requires TileRef(Background, col, row) in tiles && !tiles[TileRef(Background, col, row)]
    requires TileRef(Foreground, col, row) in tiles && !tiles[TileRef(Foreground, col, row)]
    ensures forall l: Layer :: TileRef(l, col, row) in tiles && !tiles[TileRef(l, col, row)]
  {
    forall l: Layer
      ensures TileRef(l, col, row) in tiles && !tiles[TileRef(l, col, row)]
    {
      match l
      case Background =>
      case Foreground =>
    }
  }

  /** The signed speed of a move in direction `d`. */
  function SignedSpeed(d: Direction): int {
    if d == Right || d == Down then MovementSpeed else -MovementSpeed
  }

  /** `handleMovement` toward the current target. The tile coordinates are
      the target's pixel coordinates divided by the tile size, rounded down
      (Dafny's division by a positive number rounds down, as `Math.floor`). */
  function HandleMovement(m: Moveable, tiles: TileMap, d: Direction, hasCallback: bool): (r: Step)
    ensures var col, row := m.target.x / TileSize, m.target.y / TileSize;
            TileIsOpen(tiles, col, row) ==>
              && r.m.isMoving
              && (d == Left || d == Right ==> r.m.velocityX == SignedSpeed(d) && r.m.velocityY == m.velocityY)
              && (d == Up || d == Down ==> r.m.velocityY == SignedSpeed(d) && r.m.velocityX == m.velocityX)
              && (d == Right || d == Down ==> SignedSpeed(d) > 0)
              && (d == Left || d == Up ==> SignedSpeed(d) < 0)
              && (m.currentTile.Some? ==>
                    && r.m.currentTile == Some(TileRef(Foreground, col, row))
                    && TileRef(Foreground, col, row) in r.tiles && r.tiles[TileRef(Foreground, col, row)]
                    && m.currentTile.value in r.tiles
                    && (m.currentTile.value != TileRef(Foreground, col, row) ==> !r.tiles[m.currentTile.value])
                    && (forall t :: t in tiles && t != m.currentTile.value && t != TileRef(Foreground, col, row)
                          ==> t in r.tiles && r.tiles[t] == tiles[t]))
              && (m.currentTile.None? ==> r.tiles == tiles && r.m.currentTile == None)
              && (r.emitted == if hasCallback then [CallbackRun] else [])
    ensures var col, row := m.target.x / TileSize, m.target.y / TileSize;
            !TileIsOpen(tiles, col, row) ==>
              && r.m == Face(m, d)
              && r.tiles == tiles
              && r.emitted == [AnimationStopped, HitWall]
  {
    var col, row := m.target.x / 64, m.target.y / 64;
    var fg := TileRef(Foreground, col, row);
    if TileIsOpen(tiles, col, row) then
      var speed := if d == Right || d == Down then MovementSpeed else -MovementSpeed;
      var moving := if d == Right || d == Left then m.(isMoving := true, velocityX := speed)
                    else m.(isMoving := true, velocityY := speed);
      var emitted := if hasCallback then [CallbackRun] else [];
      match m.currentTile
      case Some(prev) => Step(moving.(currentTile := Some(fg)), tiles[prev := false][fg := true], emitted)
      case None => Step(moving, tiles, emitted)
    else
      Step(Face(m, d), tiles, [AnimationStopped, HitWall])
  }

  /** `move`: face `d`, aim at the tile in front, and try to go there. */
  function Move(m: Moveable, tiles: TileMap, d: Direction, hasCallback: bool): (r: Step)
    ensures r.m.target == TileInFront(m.(facing := d))
    ensures r.m.facing == d
  {
    var aimed := m.(facing := d, target := TileInFront(m.(facing := d)));
    HandleMovement(aimed, tiles, d, hasCallback)
  }

  /** `stop`: face down and aim at the tile underfoot. */
  function Stop(m: Moveable, belowFoot: Point): (r: Moveable)
    ensures r.facing == Down && r.target == belowFoot
    ensures r == m.(facing := Down, target := belowFoot)
  {
    m.(facing := Down, target := belowFoot)
  }

  function TeleportToTarget(m: Moveable): (r: Moveable)
    ensures Point(r.x, r.y) == m.target
    ensures r == m.(x := r.x, y := r.y)
  {
    m.(x := m.target.x, y := m.target.y)
  }

  /** One frame of `moveToTarget`. */
  function MoveToTarget(m: Moveable): (r: Frame)
    ensures Point(m.x, m.y) == m.target ==>
              r.m == m.(isMoving := false) && r.emitted == [QueryUnderfoot, FinishedMovement]
    ensures Point(m.x, m.y) != m.target ==>
              && r.m.x == (if m.x != m.target.x then m.x + m.velocityX else m.x)
              && r.m.y == (if m.y != m.target.y then m.y + m.velocityY else m.y)
              && r.m == m.(x := r.m.x, y := r.m.y)
              && r.emitted == []
  {
    if m.x == m.target.x && m.y == m.target.y then
      Frame(m.(isMoving := false), [QueryUnderfoot, FinishedMovement])
    else
      var x := if m.x != m.target.x then m.x + m.velocityX else m.x;
      var y := if m.y != m.target.y then m.y + m.velocityY else m.y;
      Frame(m.(x := x, y := y), [])
  }

  /** A teleport lands on the target, so the next frame stops the sprite and
      reports the arrival without moving it. */
  lemma TeleportArrives(m: Moveable)
    ensures var t := TeleportToTarget(m);
            MoveToTarget(t) == Frame(t.(isMoving := false), [QueryUnderfoot, FinishedMovement])
  {
  }

  /** Stopping and teleporting puts the sprite on the tile underfoot, facing
      down, and the next frame leaves it there at rest. */
  lemma StopThenTeleportRestsUnderfoot(m: Moveable, belowFoot: Point)
    ensures var t := TeleportToTarget(Stop(m, belowFoot));
            && Point(t.x, t.y) == belowFoot && t.facing == Down
            && MoveToTarget(t).m == t.(isMoving := false)
            && Point(MoveToTarget(t).m.x, MoveToTarget(t).m.y) == belowFoot
  {
  }

  /** A move into a closed tile only turns the sprite: it stays where it was,
      its motion and the map are untouched, and it shows the new facing's
      frame. */
  lemma BlockedMoveOnlyTurns(m: Moveable, tiles: TileMap, d: Direction, hasCallback: bool)
    requires var p := TileInFront(m.(facing := d)); !TileIsOpen(tiles, p.x / TileSize, p.y / TileSize)
    ensures var r := Move(m, tiles, d, hasCallback);
            && r.m.x == m.x && r.m.y == m.y
            && r.m.isMoving == m.isMoving && r.m.velocityX == m.velocityX && r.m.velocityY == m.velocityY
            && r.m.frame == FrameFor(d)
            && r.tiles == tiles
            && r.emitted == [AnimationStopped, HitWall]
  {
  }

  /** A sprite that tracks its tile and moves onto an open tile closes that
      tile behind it for everyone else, and opens the tile it left. */
  lemma EnteredTileCloses(m: Moveable, tiles: TileMap, d: Direction, hasCallback: bool)
    requires m.currentTile.Some?
    requires var p := TileInFront(m.(facing := d)); TileIsOpen(tiles, p.x / TileSize, p.y / TileSize)
    ensures var p := TileInFront(m.(facing := d));
            var r := Move(m, tiles, d, hasCallback);
            && !TileIsOpen(r.tiles, p.x / TileSize, p.y / TileSize)
            && r.m.currentTile == Some(TileRef(Foreground, p.x / TileSize, p.y / TileSize))
            && (m.currentTile.value != TileRef(Foreground, p.x / TileSize, p.y / TileSize)
                ==> !r.tiles[m.currentTile.value])
  {
  }

  /** The sprite after `n` frames. */
  function Frames(m: Moveable, n: nat): Moveable
    decreases n
  {
    if n == 0 then m else Frames(MoveToTarget(m).m, n - 1)
  }

  /** Walking along one axis: `k` frames at the set velocity cover `k` steps
      and touch nothing else while the target is not yet reached. */
  lemma {:induction false} FramesAlongX(m: Moveable, k: nat)
    requires m.y == m.target.y && m.velocityX != 0
    requires m.target.x - m.x == k * m.velocityX
    ensures Frames(m, k) == m.(x := m.target.x)
    decreases k
  {
    if k > 0 {
      var next := MoveToTarget(m).m;
      assert k * m.velocityX == m.velocityX + (k - 1) * m.velocityX;
      assert next == m.(x := m.x + m.velocityX);
      FramesAlongX(next, k - 1);
    }
  }

  lemma {:induction false} FramesAlongY(m: Moveable, k: nat)
    requires m.x == m.target.x && m.velocityY != 0
    requires m.target.y - m.y == k * m.velocityY
    ensures Frames(m, k) == m.(y := m.target.y)
    decreases k
  {
    if k > 0 {
      var next := MoveToTarget(m).m;
      assert k * m.velocityY == m.velocityY + (k - 1) * m.velocityY;
      assert next == m.(y := m.y + m.velocityY);
      FramesAlongY(next, k - 1);
    }
  }

  /** A move onto an open tile reaches the tile in front after eight frames,
      still moving; the ninth frame stops it and reports the arrival. */
  lemma MoveArrivesAfterEightFrames(m: Moveable, tiles: TileMap, d: Direction, hasCallback: bool)
    requires var p := TileInFront(m.(facing := d)); TileIsOpen(tiles, p.x / TileSize, p.y / TileSize)
    ensures var moved := Move(m, tiles, d, hasCallback).m;
            var arrived := Frames(moved, 8);
            && Point(arrived.x, arrived.y) == TileInFront(m.(facing := d))
            && arrived.isMoving
            && !MoveToTarget(arrived).m.isMoving
            && MoveToTarget(arrived).emitted == [QueryUnderfoot, FinishedMovement]
  {
    var moved := Move(m, tiles, d, hasCallback).m;
    if d == Left || d == Right {
      FramesAlongX(moved, 8);
    } else {
      FramesAlongY(moved, 8);
    }
  }
}

=== FILE: object_loader.dfy ===
/** Building the exploration scene's interactive entities from the objects
    of a Tiled map's "objects" layer. Each object is dispatched on its
    `type`; the game-state lookups the factories consult (story flags,
    interactive records, NPC records, circuit state) are parameters. */
module ObjectLoader {
  import opened Common

  /** A custom property value as Tiled stores it. */
  datatype PropValue = PBool(b: bool) | PInt(n: int) | PStr(s: string)

  /** A map object: its type, pixel position, its custom properties by name,
      and its own top-level attributes by name. A missing name is
      `undefined`. */
  datatype MapObject = MapObject(
    kind: string,
    x: int,
    y: int,
    properties: map<string, PropValue>,
    attributes: map<string, PropValue>)

  /** JavaScript truthiness of a possibly undefined property value. */
  predicate Truthy(v: Option<PropValue>) {
    match v
    case None => false
    case Some(PBool(b)) => b
    case Some(PInt(n)) => n != 0
    case Some(PStr(s)) => s != ""
  }

  /** `a && b`: `a` itself when it is falsy, else `b`. */
  function JsAnd(a: Option<PropValue>, b: Option<PropValue>): (r: Option<PropValue>)
    ensures Truthy(r) <==> Truthy(a) && Truthy(b)
    ensures !Truthy(a) ==> r == a
  {
    if Truthy(a) then b else a
  }

  /** `a || b`: `a` itself when it is truthy, else `b`. */
  function JsOr(a: Option<PropValue>, b: Option<PropValue>): (r: Option<PropValue>)
    ensures Truthy(r) <==> Truthy(a) || Truthy(b)
    ensures Truthy(a) ==> r == a
  {
    if Truthy(a) then a else b
  }

  /** `getObjectPropertyByName`. */
  function Prop(o: MapObject, name: string): Option<PropValue> {
    if name in o.properties then Some(o.properties[name]) else None
  }

  function Attribute(o: MapObject, name: string): Option<PropValue> {
    if name in o.attributes then Some(o.attributes[name]) else None
  }

  /** The NPC data file's record for one NPC. */
  datatype NpcRecord = NpcRecord(spriteKey: string, facing: Option<Direction>, placement: Point, encounterId: int)

  /** The game-state lookups the factories consult, keyed by the raw
      property value (possibly undefined). `dialog` is the dialog controller's
      `getDialogById`; a dialog is represented by the value standing for it. */
  datatype Lookups = Lookups(
    dialog: Option<PropValue> -> Option<PropValue>,
    isFlagged: Option<PropValue> -> bool,
    interactiveCategory: Option<PropValue> -> string,
    npc: Option<PropValue> -> NpcRecord,
    circuitActive: Option<PropValue> -> bool)

  datatype ChestState = ChestOpen | ChestLocked | ChestClosed

  /** The entity each factory builds. `Missing` is the `undefined` that an
      interactive object of another category pushes. */
  datatype Entity =
    | Interactive(pos: Point, message: Option<PropValue>, eventId: Option<PropValue>)
    | ItemSwitch(pos: Point, interactiveId: Option<PropValue>)
    | Missing
    | Switcher(pos: Point, circuitId: Option<PropValue>)
    | Block(pos: Point, erect: bool, circuitId: Option<PropValue>)
    | PitBlock(pos: Point, erect: bool, circuitId: Option<PropValue>)
    | Spawn(pos: Point)
    | Warp(pos: Point, warpId: Option<PropValue>)
    | WarpTrigger(pos: Point, warpId: Option<PropValue>)
    | Npc(spriteKey: string, facing: Direction, placement: Point, eventId: Option<PropValue>)
    | BossMonster(spriteKey: string, encounterId: int, facing: Direction, placement: Point)
    | Chest(pos: Point, flagId: Option<PropValue>, itemId: Option<PropValue>, unlockItem: Option<PropValue>, state: ChestState)
    | LockedDoor(pos: Point, flagId: Option<PropValue>, keyItem: Option<PropValue>, lockMessage: Option<PropValue>, unlockMessage: Option<PropValue>)
    | KeyItem(pos: Point, itemId: Option<PropValue>)

  /** Whether an entity is placed at a map position of its own. */
  predicate Positioned(e: Entity) {
    !(e.Missing? || e.Npc? || e.BossMonster?)
  }

  /** The key item a door asks for when it names none. */
  const DefaultKeyItem: int := 7

  /** The object types the loader recognises. */
  const Kinds: set<string> := {"interactive", "interactive-object", "block", "pit-block", "switch", "spawn",
                               "warp", "warp-tile", "npc", "boss-monster", "chest", "door", "key-item"}

  /** Objects are centred on their tile: half a 64-pixel tile in from the
      object's corner. */
  function Centre(o: MapObject): (p: Point)
    ensures p == Point(o.x + 32, o.y + 32)
  {
    Point(o.x + 32, o.y + 32)
  }

  /** The message is `id && getDialogById(id)`: the dialog for a truthy id,
      and the falsy id itself (`undefined`, `0`, `""`, `false`) otherwise. */
  function CreateInteractive(o: MapObject, env: Lookups): (e: Entity)
    ensures e.Interactive? && e.pos == Point(o.x + 32, o.y + 32)
    ensures Truthy(Prop(o, "dialogId")) ==> e.message == env.dialog(Prop(o, "dialogId"))
    ensures !Truthy(Prop(o, "dialogId")) ==> e.message == Prop(o, "dialogId") && !Truthy(e.message)
    ensures e.eventId == Prop(o, "eventId")
  {
    var id := Prop(o, "dialogId");
    Interactive(Centre(o), JsAnd(id, env.dialog(id)), Prop(o, "eventId"))
  }

  function CreateInteractiveObject(o: MapObject, env: Lookups): (e: Entity)
    ensures env.interactiveCategory(Prop(o, "interactiveId")) == "item-switch" <==> e.ItemSwitch?
    ensures e.ItemSwitch? ==> e.pos == Point(o.x + 32, o.y + 32)
    ensures !e.ItemSwitch? ==> e == Missing
  {
    var id := Prop(o, "interactiveId");
    if env.interactiveCategory(id) == "item-switch" then ItemSwitch(Centre(o), id) else Missing
  }

  function CreateSwitch(o: MapObject): (e: Entity)
    ensures e.Switcher? && e.pos == Point(o.x + 32, o.y + 32) && e.circuitId == Prop(o, "circuitId")
  {
    Switcher(Centre(o), Prop(o, "circuitId"))
  }

  function CreateBlock(o: MapObject, env: Lookups, pit: bool): (e: Entity)
    ensures (if pit then e.PitBlock? else e.Block?) && e.pos == Point(o.x + 32, o.y + 32)
    ensures e.erect <==> env.circuitActive(Prop(o, "circuitId"))
  {
    var id := Prop(o, "circuitId");
    if pit then PitBlock(Centre(o), env.circuitActive(id), id) else Block(Centre(o), env.circuitActive(id), id)
  }

  function CreateWarp(o: MapObject, isWarpTile: bool): (e: Entity)
    ensures isWarpTile <==> e.Warp?
    ensures !isWarpTile <==> e.WarpTrigger?
    ensures e.pos == Point(o.x + 32, o.y + 32) && e.warpId == Prop(o, "warpId")
  {
    if isWarpTile then Warp(Centre(o), Prop(o, "warpId")) else WarpTrigger(Centre(o), Prop(o, "warpId"))
  }

  function CreateSpawn(o: MapObject): (e: Entity)
    ensures e == Spawn(Point(o.x + 32, o.y + 32))
  {
    Spawn(Centre(o))
  }

  function CreateNpc(o: MapObject, env: Lookups): (e: Entity)
    ensures e.Npc?
    ensures var rec := env.npc(Prop(o, "npcId"));
            && e.spriteKey == rec.spriteKey
            && (rec.facing.None? ==> e.facing == Up)
            && (rec.facing.Some? ==> e.facing == rec.facing.value)
            && e.placement == rec.placement
  {
    var rec := env.npc(Prop(o, "npcId"));
    Npc(rec.spriteKey, rec.facing.GetOr(Up), rec.placement, Prop(o, "eventId"))
  }

  function CreateBossMonster(o: MapObject, env: Lookups): (e: Entity)
    ensures e.BossMonster? && e.facing == Up
    ensures var rec := env.npc(Prop(o, "npcId"));
            e.encounterId == rec.encounterId && e.spriteKey == rec.spriteKey
  {
    var rec := env.npc(Prop(o, "npcId"));
    BossMonster(rec.spriteKey, rec.encounterId, Up, rec.placement)
  }

  function CreateChest(o: MapObject, env: Lookups): (e: Entity)
    ensures e.Chest? && e.pos == Point(o.x + 32, o.y + 32)
    ensures e.state == ChestOpen <==> env.isFlagged(Prop(o, "flagId"))
    ensures e.state == ChestLocked <==> !env.isFlagged(Prop(o, "flagId")) && Truthy(Prop(o, "locked"))
    ensures e.state == ChestClosed <==> !env.isFlagged(Prop(o, "flagId")) && !Truthy(Prop(o, "locked"))
    ensures Truthy(e.unlockItem) <==> Truthy(Prop(o, "locked")) && Truthy(Prop(o, "unlockItemId"))
  {
    var flagId, locked := Prop(o, "flagId"), Prop(o, "locked");
    var state := if env.isFlagged(flagId) then ChestOpen else if Truthy(locked) then ChestLocked else ChestClosed;
    Chest(Centre(o), flagId, Prop(o, "itemId"), JsAnd(locked, Prop(o, "unlockItemId")), state)
  }

  /** A door whose flag is set is already open and yields nothing. */
  function CreateDoor(o: MapObject, env: Lookups): (r: Option<Entity>)
    ensures r.None? <==> env.isFlagged(Prop(o, "flagId"))
    ensures r.Some? ==> r.value.LockedDoor? && r.value.pos == Point(o.x + 32, o.y + 32)
    ensures r.Some? && !Truthy(Prop(o, "keyItem")) ==> r.value.keyItem == Some(PInt(DefaultKeyItem))
    ensures r.Some? && Truthy(Prop(o, "keyItem")) ==> r.value.keyItem == Prop(o, "keyItem")
  {
    var flagId := Prop(o, "flagId");
    if !env.isFlagged(flagId) then
      Some(LockedDoor(Centre(o), flagId, JsOr(Prop(o, "keyItem"), Some(PInt(DefaultKeyItem))),
                      JsOr(Prop(o, "lockMessage"), Attribute(o, "lockMessage")),
                      JsOr(Prop(o, "unlockMessage"), Attribute(o, "unlockMessage"))))
    else
      None
  }

  function CreateKeyItem(o: MapObject): (e: Entity)
    ensures e == KeyItem(Point(o.x + 32, o.y + 32), Prop(o, "itemId"))
  {
    KeyItem(Centre(o), Prop(o, "itemId"))
  }

  /** What one object adds to the interactives list. */
  function Contribution(o: MapObject, env: Lookups): (r: seq<Entity>)
    ensures |r| <= 1
    ensures |r| == 1 <==> o.kind in Kinds && !(o.kind == "door" && env.isFlagged(Prop(o, "flagId")))
    ensures forall e | e in r && Positioned(e) :: e.pos == Point(o.x + 32, o.y + 32)
  {
    var k := o.kind;
    if k == "interactive" then [CreateInteractive(o, env)]
    else if k == "interactive-object" then [CreateInteractiveObject(o, env)]
    else if k == "block" then [CreateBlock(o, env, false)]
    else if k == "pit-block" then [CreateBlock(o, env, true)]
    else if k == "switch" then [CreateSwitch(o)]
    else if k == "spawn" then [CreateSpawn(o)]
    else if k == "warp" || k == "warp-tile" then [CreateWarp(o, k == "warp-tile")]
    else if k == "npc" then [CreateNpc(o, env)]
    else if k == "boss-monster" then [CreateBossMonster(o, env)]
    else if k == "chest" then [CreateChest(o, env)]
    else if k == "door" then
      (match CreateDoor(o, env) case Some(d) => [d] case None => [])
    else if k == "key-item" then [CreateKeyItem(o)]
    else []
  }

  /** `getDataToLoad`: every object's contribution, in layer order. */
  function GetDataToLoad(objects: seq<MapObject>, env: Lookups): (r: seq<Entity>)
    ensures |r| <= |objects|
    decreases |objects|
  {
    if objects == [] then [] else Contribution(objects[0], env) + GetDataToLoad(objects[1..], env)
  }

  /** Loading two layers' worth of objects is loading each in turn. */
  lemma {:induction false} LoadDistributes(a: seq<MapObject>, b: seq<MapObject>, env: Lookups)
    ensures GetDataToLoad(a + b, env) == GetDataToLoad(a, env) + GetDataToLoad(b, env)
    decreases |a|
  {
    if a == [] {
      assert a + b == b;
    } else {
      assert (a + b)[1..] == a[1..] + b;
      LoadDistributes(a[1..], b, env);
    }
  }

  /** Order is kept: the list is the prefix's entities, then the object's own
      entry, then the suffix's entities. */
  lemma LoadKeepsOrder(objects: seq<MapObject>, i: nat, env: Lookups)
    requires i < |objects|
    ensures GetDataToLoad(objects, env)
            == GetDataToLoad(objects[..i], env) + Contribution(objects[i], env) + GetDataToLoad(objects[i + 1..], env)
  {
    var pre, post := objects[..i], objects[i + 1..];
    assert objects == pre + ([objects[i]] + post);
    LoadDistributes(pre, [objects[i]] + post, env);
    LoadCons(objects[i], post, env);
  }

  /** Loading an object ahead of others is its own entry ahead of theirs. */
  lemma LoadCons(o: MapObject, rest: seq<MapObject>, env: Lookups)
    ensures GetDataToLoad([o] + rest, env) == Contribution(o, env) + GetDataToLoad(rest, env)
  {
    assert ([o] + rest)[1..] == rest;
  }

  /** At most one entity per object; exactly one per object when every type
      is recognised and no door is already open. */
  lemma {:induction false} LoadCount(objects: seq<MapObject>, env: Lookups)
    ensures |GetDataToLoad(objects, env)| <= |objects|
    ensures (forall o | o in objects :: o.kind in Kinds && !(o.kind == "door" && env.isFlagged(Prop(o, "flagId"))))
            ==> |GetDataToLoad(objects, env)| == |objects|
    ensures (forall o | o in objects :: o.kind !in Kinds) ==> GetDataToLoad(objects, env) == []
    decreases |objects|
  {
    if objects != [] {
      assert forall o | o in objects[1..] :: o in objects;
      LoadCount(objects[1..], env);
    }
  }

  /** Every placed entity sits at the centre of the object it came from. */
  lemma {:induction false} LoadPlacesAtCentres(objects: seq<MapObject>, env: Lookups)
    ensures forall e | e in GetDataToLoad(objects, env) && Positioned(e) ::
              exists o | o in objects :: e.pos == Point(o.x + 32, o.y + 32)
    decreases |objects|
  {
    if objects != [] {
      LoadPlacesAtCentres(objects[1..], env);
      forall e | e in GetDataToLoad(objects, env) && Positioned(e)
        ensures exists o | o in objects :: e.pos == Point(o.x + 32, o.y + 32)
      {
        if e in Contribution(objects[0], env) {
          assert objects[0] in objects;
        } else {
          assert e in GetDataToLoad(objects[1..], env);
          var o :| o in objects[1..] && e.pos == Point(o.x + 32, o.y + 32);
          assert o in objects;
        }
      }
    }
  }
}

=== FILE: shop.dfy ===
/** Buying and selling in a shop: rules over the player's coin balance and the
    items the player holds. The coin and contents bookkeeping of the player
    state is modelled as a balance and a multiset of item ids. */
module Shop {
  import opened Common
  import opened Items

  /** An item as the shop lists it, with its price. */
  datatype ShopItem = ShopItem(id: ItemId, name: string, value: int)

  /** The player's coins and held items. */
  datatype Purse = Purse(coins: int, contents: multiset<ItemId>)

  /** The purse after a transaction, and the message shown when it was refused. */
  datatype Sale = Sale(purse: Purse, refusal: Option<string>)

  /** `purchaseItem`: refuses when the price exceeds the balance; otherwise
      takes the price and adds the item. */
  function PurchaseItem(p: Purse, item: ShopItem): (r: Sale)
    ensures r.refusal.Some? <==> item.value > p.coins
    ensures r.refusal.Some? ==> r.purse == p && r.refusal == Some("Not enough coins!")
    ensures r.refusal.None? ==>
              r.purse.coins == p.coins - item.value && r.purse.contents == p.contents + multiset{item.id}
    ensures r.refusal.None? ==> r.purse.coins >= 0
  {
    if item.value > p.coins then Sale(p, Some("Not enough coins!"))
    else Sale(Purse(p.coins - item.value, p.contents + multiset{item.id}), None)
  }

  /** `sellItem`: refuses when the player holds no such item; otherwise pays
      the item's value and takes one of it. */
  function SellItem(p: Purse, item: ShopItem): (r: Sale)
    ensures r.refusal.Some? <==> item.id !in p.contents
    ensures r.refusal.Some? ==> r.purse == p && r.refusal == Some("No " + item.name + " to sell!")
    ensures r.refusal.None? ==>
              && r.purse.coins == p.coins + item.value
              && r.purse.contents == p.contents - multiset{item.id}
              && |r.purse.contents| == |p.contents| - 1
  {
    if item.id !in p.contents then Sale(p, Some("No " + item.name + " to sell!"))
    else Sale(Purse(p.coins + item.value, p.contents - multiset{item.id}), None)
  }

  /** Selling back what was just bought restores the purse. */
  lemma SellUndoesPurchase(p: Purse, item: ShopItem)
    requires PurchaseItem(p, item).refusal.None?
    ensures SellItem(PurchaseItem(p, item).purse, item) == Sale(p, None)
  {
    assert p.contents + multiset{item.id} - multiset{item.id} == p.contents;
  }

  /** Buying back what was just sold restores the purse, from any
      non-negative balance. */
  lemma PurchaseUndoesSale(p: Purse, item: ShopItem)
    requires p.coins >= 0 && item.id in p.contents
    ensures PurchaseItem(SellItem(p, item).purse, item) == Sale(p, None)
  {
    assert p.contents - multiset{item.id} + multiset{item.id} == p.contents;
  }

  datatype Trade = Buy(item: ShopItem) | SellBack(item: ShopItem)

  /** A visit to the shop: the trades in order, each refused or carried out. */
  function Visit(p: Purse, trades: seq<Trade>): Purse
    decreases |trades|
  {
    if |trades| == 0 then p
    else
      var step := match trades[0]
                  case Buy(it) => PurchaseItem(p, it)
                  case SellBack(it) => SellItem(p, it);
      Visit(step.purse, trades[1..])
  }

  /** No sequence of trades takes a non-negative balance below zero, as long
      as nothing sells for a negative price. */
  lemma {:induction false} VisitKeepsCoinsNonNegative(p: Purse, trades: seq<Trade>)
    requires p.coins >= 0
    requires forall i :: 0 <= i < |trades| && trades[i].SellBack? ==> trades[i].item.value >= 0
    ensures Visit(p, trades).coins >= 0
    decreases |trades|
  {
    if |trades| > 0 {
      var step := match trades[0]
                  case Buy(it) => PurchaseItem(p, it)
                  case SellBack(it) => SellItem(p, it);
      assert step.purse.coins >= 0;
      assert forall i :: 0 <= i < |trades| - 1 ==> trades[1..][i] == trades[i + 1];
      VisitKeepsCoinsNonNegative(step.purse, trades[1..]);
    }
  }
}
